=== FILE: README.md ===
# Pinball simulation core, modelled in Dafny

This project models the simulation core of a p5.play pinball game. The game is a single
sketch, `src/sketch.js`. The model gathers the game's global variables into one `State` record.
One frame of the game (`Game.Frame`) is a pure function, and so is each key and button event
(`Game.KeyDown`, `Game.KeyUp`, `Game.StartRewind`, `Game.StopRewind`). Modules:

- `JsValue`: JavaScript `undefined`, `x++`, `pop` and "last element". The replay index can become
  `undefined` (see below), so it is modelled as a `Slot<int>`.
- `Kinematics`: vectors, the ball, collider shapes, and the p5 / p5.play operations the sketch
  calls. Those operations (overlap test, `collide`, `update`, `limitSpeed`, `getSpeed`,
  `atan2`, `cos`, `sin`, `dist`, the ball's width) are arbitrary total functions held in a
  `Library` value. Every property holds for any library, unless it assumes `ExactAxes`: exact
  cosine and sine at 0, 90 and 180 degrees. Also here: `bounceRectangle`, `undoMovement`,
  `bouncePoint`, `bounce`, `resetBall`, gravity, `limitToOne` and `absoluteValue`.
- `Paddles`: the paddle angle state machine and the Z / `.` key mapping. There is no clamp, so
  a held paddle steps from -45 down to -51. The reachable angles are exactly 45 - 6k for
  k = 0..16.
- `Pumps`: compression, force, launch and the pump end's position. Compression is counted in
  steps of 0.025.
- `Platforms`: the floating platform, whose location is counted in steps of 0.005. From its
  start it follows a triangle wave of period 400 frames.
- `Timeline`: the per-actor histories. This covers append (`updateRecord`), the guarded pop
  (`rewind`), the cut back to the first frame (R key), and the two reads: newest frame
  (`pauseGame` / `resumeGame`) and frame by index (`setToPointInTime`).
- `GameState`: the state record, the entity tags, the table (`Arena`) and the start state.
- `Collision`: `checkCollision`. It visits every entity in order and every collider of each
  entity in order. For each collider the ball overlaps, the entity's tag selects the response.
  This module also holds scoring.
- `Game`: `checkFail`, pause / resume, replay, the frame order, and the key and button events.
- `Invariants`: a state invariant that holds from the start of a game through any sequence of
  events.
- `Layout`: the circle chain of a line collider, and the relative / absolute coordinate
  conversion.

The model follows the code's own quirks:

- Scoring falls through: silver scores 300, bronze 200, copper 100.
- `if(isGameOver = false)` is an assignment, so the replay index is never reset to 0
  (`Game.CheckFail`).
- `if (...);` in `rewind` has an empty body, so the replay-index history is popped every time.
  Rewinding at the first frame therefore empties it (`Timeline.RewindEmptiesReplayIndex`).
- The R key cuts every history except the replay index's, and leaves the live index alone
  (`Game.ResetStrandsReplayIndex`).

More of the code's behaviour that the model keeps:

- The asteroid cases of the collision switch have no `break` until copper
  (src/sketch.js:1214-1222), so a silver hit adds 100 three times (`Collision.AsteroidTiers`).
- `handleInput` compares the angle with -46 and 45 before stepping by 6 and never clamps
  (src/sketch.js:162-179), so a held paddle ends at -51 (`Paddles.HeldFromRest`).
- The R key handler (src/sketch.js:1326-1355) resets lives, score, the ball and the histories,
  but neither `pointInTime` nor the platform's direction. So R, then P, then a paused frame can
  put the platform one step outside its travel (`Game.ResetThenPauseLeavesTravel`).

## Model

| member | source | states |
|---|---|---|
| JsValue.Increment | src/sketch.js:964 | `pointInTime++` adds one to a number and leaves `undefined` not-a-number |
| JsValue.Newest | src/sketch.js:874 | reading the last element gives `undefined` exactly when the history is empty, and otherwise the history's last element |
| JsValue.Pop | src/sketch.js:1022 | `pop` drops one element from a non-empty history, leaves a prefix, and does nothing to an empty one |
| Kinematics.SetSpeed | src/sketch.js:1192-1201 | `setSpeed(v, 0)` gives velocity (v, 0) and `setSpeed(v, 180)` gives (-v, 0) |
| Kinematics.AddSpeed | src/sketch.js:909-910 | `addSpeed(s, 90)` adds s to the vertical velocity only |
| Kinematics.LimitToOne | src/sketch.js:1802-1816 | the result is 1, -1 or 0 exactly when the value is positive, negative or zero |
| Kinematics.AbsoluteValue | src/sketch.js:1820-1830 | the result is non-negative and is the value or its negation |
| Kinematics.SignTimesMagnitude | src/sketch.js:1802-1830 | `limitToOne(v) * absoluteValue(v) == v` for every v |
| Kinematics.Lerp | src/sketch.js:203 | `lerp` meets its end points at 0 and 1 and stays between them for amounts in [0, 1] |
| Kinematics.UndoMovement | src/sketch.js:1032-1036 | the ball goes back to its previous position, velocity unchanged |
| Kinematics.BounceRectangle | src/sketch.js:1058-1080 | the ball is put back at its previous position; each velocity component keeps its magnitude, points away from a face the centre lies beyond, and is unchanged on an axis where the centre lies within the box |
| Kinematics.BounceRectangleIdempotent | src/sketch.js:1058-1080 | bouncing twice off the same box equals bouncing once |
| Kinematics.ApproachFromAboveBouncesUp | src/sketch.js:1072-1079 | for any box and any ball that came from above it moving down, the ball is put back above the box, going up at the same vertical speed, with its horizontal speed kept |
| Kinematics.BouncePoint | src/sketch.js:1039-1054 | the ball is moved by one ball width along the `atan2` direction and gets its speed plus the force along that same direction; with a non-negative width and speed the new velocity points the same way as the push |
| Kinematics.BouncePointDistances | src/sketch.js:1039-1054 | with an exact unit direction, the ball moves exactly one ball width and leaves at exactly its speed plus the force |
| Kinematics.BouncePointAway | src/sketch.js:1039-1054 | when the `atan2` direction points from the point towards the ball, both the push and the new velocity point away from the point |
| Kinematics.Bounce | src/sketch.js:1082-1097 | a box collider gives exactly the rectangle bounce off its centre, width and height; any other collider gives the point bounce off its centre with no added force |
| Kinematics.ResetBall | src/sketch.js:1793-1799 | the ball goes to the start position at rest |
| Kinematics.Gravity | src/sketch.js:906-911 | gravity adds 0.0666 to the vertical velocity and does not move the ball |
| Paddles.NewPaddle | src/sketch.js:118-121 | a new paddle rests at 45 degrees with its key up |
| Paddles.HandleInput | src/sketch.js:162-179 | the angle drops by 6 exactly when the key is held and the angle is above -46, rises by 6 exactly when the key is up and the angle is below 45, and is otherwise unchanged |
| Paddles.HandleInputKeepsReachable | src/sketch.js:162-179 | input handling keeps the angle among 45 - 6k, k = 0..16 |
| Paddles.HeldFromRest | src/sketch.js:166-171 | holding from rest makes the angle drop by 6 degrees a frame for 16 frames, then it stays at -51, below the nominal minimum |
| Paddles.HeldFrom | src/sketch.js:166-171 | from any reachable angle, holding makes the angle drop by 6 a frame until -51 |
| Paddles.ReleasedFrom | src/sketch.js:172-177 | from any reachable angle, releasing makes the angle rise by 6 a frame until 45 |
| Paddles.EveryReachableAngleIsReached | src/sketch.js:120 | every angle 45 - 6k, k = 0..16, is reached by holding the key from rest |
| Paddles.FlippedRotationIsHalfTurn | src/sketch.js:136-149 | a flipped paddle's sprite is drawn at `-(-angle - 180)`, half a turn from an unflipped one |
| Paddles.SetKey | src/sketch.js:1296-1313 | Z sets the key flag of exactly the unflipped paddles and `.` of exactly the flipped ones; nothing else changes |
| Paddles.KeysCommute | src/sketch.js:1371-1388 | the two paddle keys act on disjoint paddles, so their events commute |
| Paddles.PressThenRelease | src/sketch.js:1371-1388 | press then release leaves that side released and the other side untouched |
| Pumps.UpdatePump | src/sketch.js:756-786 | held: one compression step and 0.15 force while below full; released: one step back, and a launch exactly when the ball is held with force, which lifts the ball 20, sets velocity (0, -force), spends the force and frees the ball; without a launch the ball is untouched and force does not drop |
| Pumps.UpdatePumpKeepsOk | src/sketch.js:756-786 | compression stays within its travel, force stays non-negative, and force drops only through a launch |
| Pumps.ForceCarriesOver | src/sketch.js:764-786 | with no ball on the pump, force never decreases over any presses and releases |
| Pumps.HoldFromRest | src/sketch.js:764-771 | holding for n frames (up to full) compresses n steps and stores 0.15 force per step |
| Pumps.EndY | src/sketch.js:788-791 | the pump end lies between the box and 5 below it, at the box when released and 5 below when full |
| Pumps.EndYMonotone | src/sketch.js:788-791 | more compression puts the pump end lower |
| Platforms.Update | src/sketch.js:201-215 | the location moves by the direction; the direction becomes -1 at or past the right end, +1 at or past the left end, and is kept in between |
| Platforms.UpdateKeepsUnitDirection | src/sketch.js:207-214 | the direction stays 1 or -1 |
| Platforms.UpdateKeepsOscillating | src/sketch.js:201-215 | one update keeps the platform within its travel, pointed inwards at either end |
| Platforms.FollowsTriangle | src/sketch.js:196-216 | from its start the platform follows a triangle wave of period 400 frames exactly |
| Platforms.PlatformX | src/sketch.js:203 | the platform's x is `lerp` of a quarter and three quarters of the play area at the location, with no clamp; it lies between them when the location is within its travel |
| Timeline.FirstRecord | src/sketch.js:1454-1460 | the start-up record holds one frame in every history |
| Timeline.Append | src/sketch.js:794-822 | `updateRecord` appends exactly one entry to every history and keeps the prefix |
| Timeline.AppendKeepsSynced | src/sketch.js:794-822 | appending keeps the histories the same length and adds one frame |
| Timeline.PopUnlessFirst | src/sketch.js:998-1003 | a history is popped only when its length is not 1 |
| Timeline.Rewind | src/sketch.js:994-1026 | every history is popped unless it is down to one entry, except the replay-index history, which is always popped |
| Timeline.RewindKeepsSynced | src/sketch.js:994-1026 | rewinding keeps the histories equal-length and non-empty, dropping one frame or none |
| Timeline.RewindEmptiesReplayIndex | src/sketch.js:1021-1022 | rewinding at the first frame empties the replay-index history |
| Timeline.RewindUndoesAppend | src/sketch.js:994-1026 | rewinding right after recording restores the record exactly |
| Timeline.CutToFirst | src/sketch.js:1331-1351 | the R key cuts every history but the replay index back to its first entry |
| Timeline.CutToFirstIdempotent | src/sketch.js:1331-1351 | cutting back twice equals cutting back once |
| Timeline.Latest | src/sketch.js:846-878 | the newest frame holds, for every history, its last element (`undefined` only for an empty replay-index history) |
| Timeline.LatestOfAppend | src/sketch.js:846-878 | the newest frame read back is the one just recorded |
| Timeline.FrameAt | src/sketch.js:880-904 | frame f is defined exactly when f is a recorded index, and then holds that index's angles, location and position |
| Timeline.FrameAtStableUnderAppend | src/sketch.js:880-904 | recording more frames never changes a recorded frame |
| Timeline.LatestIsLastFrame | src/sketch.js:846-904 | the newest frame's angles, location and position are the frame read by index at the last recorded index |
| GameState.Snap | src/sketch.js:794-822 | a snapshot holds each paddle's angle, the platform location, the ball's position and velocity, and the game variables |
| GameState.StartPaddles | src/sketch.js:1548-1567 | four paddles at 45 degrees with keys up, the last two flipped |
| GameState.Initial | src/sketch.js:1431-1460 | a game starts with 3 lives, no score, replay index 0 and one recorded frame |
| Collision.AsteroidTiers | src/sketch.js:1214-1222 | by fall-through, silver scores 300, bronze 200, copper 100, everything else 0 |
| Collision.Points | src/sketch.js:1214-1222 | the points of any run of hits are non-negative |
| Collision.PointsBounds | src/sketch.js:1214-1222 | the points of any run of hits are a multiple of 100, at most 300 per hit |
| Collision.PointsConcat | src/sketch.js:1214-1222 | points add up over consecutive runs of hits |
| Collision.PaddleResponse | src/sketch.js:1157-1190 | the swing sound plays exactly when the paddle's key is held with its angle above the minimum, or the ball is on its striking side, and then the ball gets the point bounce off the collider with force dist / 35, the distance from the paddle pivot to the collider over `PADDLE_FORCE` |
| Collision.PaddleRoll | src/sketch.js:1176-1189 | a paddle that is not swinging leaves the ball rolling horizontally, away from the hinge when tilted down (angle > 0) and towards it otherwise, which is downhill either way as screen y grows downwards; at speed 2, or 0 when level with the hinge |
| Collision.DeathPitResponse | src/sketch.js:1192-1201 | the ball is pushed out of the pit's whole collider array by `collide` and then creeps at speed 2 towards the middle of the table |
| Collision.BallResponse | src/sketch.js:1155-1244 | exhaust pipe: only x becomes half the width; pump: ball back and at rest; asteroids, shield and untagged: generic bounce; bouncer: point bounce with force 1.5; and the matching sounds |
| Collision.Respond | src/sketch.js:1155-1244 | one overlap changes only the ball, adds that tag's points, and makes the pump hold the ball exactly on a pump hit |
| Collision.Probe | src/sketch.js:1153-1155 | testing one collider changes only the ball, score and pump hold, and records that collider's tag exactly when the ball overlaps it, otherwise nothing changes |
| Collision.CollideColliders | src/sketch.js:1153-1245 | one entity's colliders change only the ball, the score (by exactly the points hit) and the pump's hold |
| Collision.CollideCollidersHits | src/sketch.js:1153-1245 | every hit of one entity's remaining colliders is that entity's tag, and there is at most one per collider |
| Collision.CollideEntities | src/sketch.js:1150-1246 | the same over all remaining entities in order: only the ball, the score by the points hit and the pump hold change |
| Collision.CollideEntitiesCount | src/sketch.js:1150-1246 | the remaining entities give at most one hit per collider they own |
| Collision.CheckCollision | src/sketch.js:1147-1247 | a collision pass changes only the ball, raises the score by exactly the asteroid points hit, and the pump holds the ball afterwards exactly if it did before or a pump collider was hit; there are no hits exactly when the ball overlaps no collider, and then nothing changes |
| Collision.CollideCollidersHitIffOverlap | src/sketch.js:1153-1245 | one entity's remaining colliders give no hit exactly when the ball overlaps none of them |
| Collision.CollideEntitiesHitIffOverlap | src/sketch.js:1150-1246 | the remaining entities give no hit exactly when the ball overlaps none of their colliders |
| Collision.FirstOverlapRespondsFirst | src/sketch.js:1150-1246 | when entity m has an overlapping collider and no earlier entity has one, the first hit is entity m's tag |
| Collision.TargetsEnumerate | src/sketch.js:1150-1155 | the flat list of (entity, collider) pairs holds exactly the valid pairs from entity e on, in loop order |
| Collision.CheckCollisionIsSweep | src/sketch.js:1147-1247 | the nested loops equal one flat pass over every (entity, collider) pair in order |
| Game.CheckFail | src/sketch.js:933-957 | nothing changes unless the ball is below the canvas; then a life is lost and the ball respawns, or with no lives the game is over; the replay index never changes and lives never go negative |
| Game.WithAngles | src/sketch.js:830-832 | each paddle takes its recorded angle and nothing else changes |
| Game.ResumeGame | src/sketch.js:824-844 | the snapshot of the resumed state is the newest recorded frame except for the live game variables; nothing outside a snapshot changes |
| Game.PauseGame | src/sketch.js:846-878 | the snapshot of the held state is the newest recorded frame with the ball still (game variables included); nothing outside a snapshot changes, and the next unpaused frame resumes |
| Game.SetToPointInTime | src/sketch.js:880-904 | succeeds exactly when the frame is recorded; then the snapshot takes that frame's angles, location and ball position with the ball still, keeps the game variables, and nothing outside a snapshot changes |
| Game.PlayReplay | src/sketch.js:959-969 | before game over nothing changes; after it the replay succeeds exactly when the next frame is recorded, and then the index advances and that frame is shown with the ball still |
| Game.PaddleStep | src/sketch.js:162-179 | one paddle takes one input step; a collision pass runs exactly when the angle changed, and otherwise nothing else changes |
| Game.UpdatePaddlesFrom | src/sketch.js:925-931 | each remaining paddle takes one input step, and any collisions change only the ball, score and pump hold |
| Game.UpdatePaddles | src/sketch.js:925-931 | every paddle takes exactly one input step; score grows by the points hit |
| Game.PumpFrame | src/sketch.js:756-786 | the pump frame, with the launch sound exactly on a launch |
| Game.SubStep | src/sketch.js:914-921 | one ball sub-step leaves the ball at speed at most 6 when the speed limit holds, and changes only the ball, the score (by the points hit) and the pump hold |
| Game.SubStepQuiet | src/sketch.js:914-921 | a sub-step hits exactly when the moved ball overlaps a collider; with none overlapped only the move and the speed limit happen; the limit applies to the velocity the collision pass left |
| Game.SubSteps | src/sketch.js:914-922 | the same over the remaining sub-steps; when any sub-step runs and the speed limit holds, the ball ends at speed at most 6 |
| Game.UpdateBall | src/sketch.js:906-923 | gravity and three sub-steps change only the ball, score and pump hold, and leave the ball at speed at most 6 when the speed limit holds |
| Game.UpdateBallFreeFlight | src/sketch.js:906-923 | with no entities, the sprite update with the ball's friction of 0.0035 (src/sketch.js:1473) and a slow ball, a ball update adds gravity once, then twice scales the velocity by 0.9965 and moves the ball by it, with no hits or sounds |
| Game.RecordFrame | src/sketch.js:794-822 | recording appends the live state's snapshot to the record and changes nothing else |
| Game.Prepare | src/sketch.js:491-502 | on resuming, the paddles take the newest recorded angles and the platform its recorded location; every paddle then takes one input step, the pump takes its frame, lives and the game-over flag are kept, and the record, replay index and pause flags are left alone |
| Game.Conclude | src/sketch.js:507-509 | the fail check decides lives and the game-over flag; the ball update then changes only the ball, score and pump hold, leaving the ball at speed at most 6 when the speed limit holds |
| Game.Advance | src/sketch.js:491-514 | an unpaused frame before the replay records exactly the snapshot of the state after paddles and pump, and its lives and game-over flag are those of the fail check on that state |
| Game.Play | src/sketch.js:489-515 | an unpaused frame adds one frame, and a replay index naming a recorded frame still names one afterwards |
| Game.ReplayAdvancesInRange | src/sketch.js:959-969 | a replay index below the newest frame stays recorded after the replay steps it |
| Game.Hold | src/sketch.js:516-524 | a paused frame pops one frame when rewinding and then shows the newest frame |
| Game.Frame | src/sketch.js:489-525 | paused frames always succeed, are silent, and rewind or keep the record; unpaused frames record one frame and keep a valid replay index valid |
| Game.ResetGame | src/sketch.js:1326-1355 | R gives 3 lives, no score, not over, the ball at the start and the record cut to its first frame, but keeps the replay index |
| Game.ResetGameIdempotent | src/sketch.js:1326-1355 | pressing R twice equals pressing it once |
| Game.ResetThenPauseLeavesTravel | src/sketch.js:1326-1355 | R, then P, then a paused frame, with the platform moving left, puts the platform at location -1, outside its travel |
| Game.ResetStrandsReplayIndex | src/sketch.js:1326-1355 | after R, a replay index past 0 no longer names a recorded frame and the next replay reads past the recording |
| Game.KeyDown | src/sketch.js:1265-1362 | P toggles pause only when not rewinding; Z, `.`, space and R act as described; other keys do nothing |
| Game.KeyUp | src/sketch.js:1364-1396 | releasing Z, `.` or space clears the matching flag; other keys do nothing |
| Game.StartRewind | src/sketch.js:971-982 | the rewind button pauses and rewinds, and changes nothing else |
| Game.StopRewind | src/sketch.js:984-992 | releasing it resumes and stops rewinding, and changes nothing else |
| Game.Apply | src/sketch.js:479-532 | every event keeps the histories synchronised |
| Game.Run | src/sketch.js:479-532 | any sequence of events keeps the histories synchronised |
| Invariants.InitialInv | src/sketch.js:1431-1460 | a game starts in a good state |
| Invariants.AppendKeepsOk | src/sketch.js:794-822 | recording a good live state keeps every recorded frame good |
| Invariants.RewindKeepsOk | src/sketch.js:994-1026 | rewinding keeps every recorded frame good |
| Invariants.CutToFirstKeepsOk | src/sketch.js:1331-1351 | the R key's cut keeps the record good |
| Invariants.LatestOk | src/sketch.js:846-878 | a pause restores reachable angles and consistent lives, score and game-over flag |
| Invariants.FrameAtOk | src/sketch.js:880-904 | a replay restores reachable angles |
| Invariants.UndisturbedKeepsLive | src/sketch.js:1147-1247 | a collision pass keeps the live state good |
| Invariants.UpdatePaddlesKeepsLive | src/sketch.js:925-931 | paddle updates keep every angle reachable |
| Invariants.PumpFrameKeepsLive | src/sketch.js:756-786 | the pump frame keeps the pump within its travel with non-negative force |
| Invariants.CheckFailKeepsLive | src/sketch.js:933-957 | losing a life keeps lives in 0..3, and the game is only over with no lives |
| Invariants.PrepareKeepsLive | src/sketch.js:491-502 | resuming, paddles and pump keep the live state good |
| Invariants.ConcludeKeepsLive | src/sketch.js:507-509 | the fail check and the ball update keep the live state good |
| Invariants.AdvanceKeepsInv | src/sketch.js:491-514 | the unpaused frame before the replay keeps the state good |
| Invariants.PlayReplayKeepsInv | src/sketch.js:959-969 | the replay keeps the state good |
| Invariants.HoldKeepsInv | src/sketch.js:516-524 | a paused frame keeps the state good |
| Invariants.FrameKeepsInv | src/sketch.js:489-525 | every frame keeps the state good |
| Invariants.KeyDownKeepsInv | src/sketch.js:1265-1362 | every key press keeps the state good; a rewind happens only while paused |
| Invariants.KeyUpKeepsInv | src/sketch.js:1364-1396 | every key release keeps the state good |
| Invariants.ApplyKeepsInv | src/sketch.js:479-532 | every event keeps the state good |
| Invariants.RunKeepsInv | src/sketch.js:479-532 | any sequence of events keeps the state good |
| Invariants.GameStaysInRange | src/sketch.js:479-532 | from the start of a game, lives stay in 0..3, the score is never negative, the game is only over with no lives, and paddle angles stay in [-51, 45] |
| Layout.CreateLineCollider | src/sketch.js:1104-1122 | exactly the circles k with k * 12.5 below the line's length are made, each 25 wide at k * 12.5 along the line |
| Layout.ToRelative | src/sketch.js:1404-1410 | a point on the canvas saves as fractions in [0, 1] |
| Layout.ToAbsolute | src/sketch.js:1716-1717 | fractions in [0, 1] load as a point on the canvas |
| Layout.CoordinatesRoundTrip | src/sketch.js:1716-1717 | saving then loading a position gives it back, and loading then saving gives back the fractions |

## Left out

- Rendering, images, animation, the UI text, menus, the leaderboard, credits and the loading
  screen: they do not affect the simulation.
- Sound playback: the model reports which sound a frame triggers (`Collision.Sound`) and plays
  nothing.
- Loading entities from JSON and saving them, and developer-mode entity placement
  (`DEVELOPER_MODE` is false). Only the coordinate conversion is modelled.
- The p5 / p5.play internals. These are the sprite overlap test, `collide`, position
  integration, `limitSpeed`, `getSpeed`, `atan2`, `cos`, `sin`, `dist` and sprite widths. They
  are abstract functions, so their geometry is not reasoned about.
- Collider placement: paddle circles along the paddle angle, and the platform and pump-end
  colliders following their positions. The model reads every collider's placement from the
  state through the `Arena` (`shapeOf`), and that function is left abstract.
- The platform collider's lag behind the platform location. Only `sciPlatform.update` moves the
  collider (src/sketch.js:204-205), at the end of each frame (src/sketch.js:525). `resumeGame`
  restores the location without moving the collider (src/sketch.js:834). So on a resume frame,
  the paddle and ball collision passes meet the collider one step (1.5 px) ahead of the restored
  location. On the first frame the collider is still where it was created, at
  x = playAreaWidth / 2 = 300 (src/sketch.js:1534), while the location 0 puts it at x = 150. A `shapeOf` that reads only the
  state cannot give those positions, so this lag is not modelled.
- Floating-point arithmetic. Positions and speeds are exact reals. The pump and platform
  fractions are whole numbers of steps, so the drift of repeated `+= 0.025` and `+= 0.005` is
  not modelled. With that drift, "fully compressed" could take 41 steps instead of 40.
- Reading past the recording. The ball's histories are the first item of the record
  (src/sketch.js:1476, pushed before the others), so when the replay index is past the last
  recorded frame, or is `undefined` after its history was emptied, `setToPointInTime` first
  zeroes the ball's velocity (src/sketch.js:897-898) and then throws a TypeError reading
  `position[frame].x` (src/sketch.js:899). That abandons the rest of the frame. The model returns
  `ReplayPastRecording` instead and does not keep the zeroed velocity.
- Platforms.UpdateKeepsOscillating: holds for one platform update on its own. Across a whole
  game it can fail: R does not reset the direction, and a pause then restores location 0, so a
  left-moving platform reaches -1 (`Game.ResetThenPauseLeavesTravel`).
- Library assumptions: `Kinematics.SpriteFlight` (the sprite update slows the velocity by the
  ball's friction and then adds it to the position), `Kinematics.FrictionSlows` (friction does
  not raise `getSpeed`), `CapHolds` and `CapKeepsSlow` (`limitSpeed` caps the speed) are only
  assumed, by
  `Game.SubSteps`, `Game.UpdateBall` and `Game.UpdateBallFreeFlight` where they are stated.
- Game.UpdateBallFreeFlight: covers the sprite updates that `updateBall` itself calls
  (src/sketch.js:916-917). p5.play also updates every sprite once per draw, because the sketch
  never turns that off with `updateSprites(false)`; that extra ball update is why `updateBall`
  skips `ball.update()` on loop 0. `Game.Frame` does not model that per-draw update, so the ball
  moves by one sprite update less per frame than in the game.
- The `gravity` flag is always true, so gravity is always applied.
- The Esc key (`deinitialiseSketch`, which leaves the game for the menu) and the developer-mode
  keys F, arrows, V and S.
- Music switching on rewind start and stop.
- Game.Apply: states only that the histories stay synchronised. What each event does is stated
  by `Game.KeyDown`, `Game.KeyUp`, `Game.StartRewind`, `Game.StopRewind` and `Game.Frame`.
- Game.Run: states only that the histories stay synchronised. `Invariants.RunKeepsInv` states
  the invariant.

=== FILE: collision.dfy ===
/** Collision response: for every entity in registry order and every one of its colliders in
    order, if the ball overlaps the collider (checked against the ball as it is at that moment),
    the entity's tag selects the response. Responses move the ball, add score, or let the pump
    take the ball; nothing else in the state changes. */
module Collision {
  import opened Kinematics
  import opened Paddles
  import opened Pumps
  import opened GameState

  /** The sound cues a response can trigger. */
  datatype Sound = Swing | Impact | Boing | Launch

  /** A response's ball and the sounds it plays. */
  datatype Response = Response(ball: Ball, sounds: seq<Sound>)

  /** The result of a collision pass: the new state, the tags of the colliders hit, in order,
      and the sounds played. */
  datatype Pass = Pass(state: State, hits: seq<EntityKind>, sounds: seq<Sound>)

  /** `t` differs from `s` at most in the ball, the score and whether the pump holds the ball. */
  predicate Undisturbed(s: State, t: State)
  {
    t == s.(ball := t.ball, score := t.score, pump := s.pump.(isBallHeld := t.pump.isBallHeld))
  }

  lemma UndisturbedTrans(s: State, t: State, u: State)
    requires Undisturbed(s, t) && Undisturbed(t, u)
    ensures Undisturbed(s, u)
  {
  }

  /** Score for one hit. The asteroid cases fall through: silver runs all three `+= 100`
      statements, bronze the last two, copper the last one. */
  function HitPoints(kind: EntityKind): int
  {
    (if kind.SilverAsteroid? then 100 else 0)
    + (if kind.SilverAsteroid? || kind.BronzeAsteroid? then 100 else 0)
    + (if kind.SilverAsteroid? || kind.BronzeAsteroid? || kind.CopperAsteroid? then 100 else 0)
  }

  /** Silver asteroids are worth 300, bronze 200, copper 100, anything else nothing. */
  lemma AsteroidTiers(kind: EntityKind)
    ensures kind.SilverAsteroid? ==> HitPoints(kind) == 300
    ensures kind.BronzeAsteroid? ==> HitPoints(kind) == 200
    ensures kind.CopperAsteroid? ==> HitPoints(kind) == 100
    ensures !(kind.SilverAsteroid? || kind.BronzeAsteroid? || kind.CopperAsteroid?) ==> HitPoints(kind) == 0
  {
  }

  /** Total score of a sequence of hits. */
  function Points(hits: seq<EntityKind>): (n: int)
    ensures n >= 0
    decreases |hits|
  {
    if |hits| == 0 then 0 else HitPoints(hits[0]) + Points(hits[1..])
  }

  /** Every hit is worth 0, 100, 200 or 300, so a run of hits scores whole hundreds, at most 300 each. */
  lemma {:induction false} PointsBounds(hits: seq<EntityKind>)
    ensures Points(hits) <= 300 * |hits|
    ensures Points(hits) % 100 == 0
    decreases |hits|
  {
    if |hits| > 0 {
      PointsBounds(hits[1..]);
      var rest := Points(hits[1..]);
      assert rest == 100 * (rest / 100);
      assert Points(hits) == 100 * (HitPoints(hits[0]) / 100 + rest / 100);
    }
  }

  lemma {:induction false} PointsConcat(x: seq<EntityKind>, y: seq<EntityKind>)
    ensures Points(x + y) == Points(x) + Points(y)
    decreases |x|
  {
    if |x| > 0 {
      assert (x + y)[1..] == x[1..] + y;
      PointsConcat(x[1..], y);
    } else {
      assert x + y == y;
    }
  }

  /** Whether a paddle bounces the ball with a swing. `ballAngle` is the direction from the ball
      to the paddle hinge. The paddle swings if its key is held while its angle is still above
      the minimum, or if the ball is on its striking side, which is checked differently for flipped paddles. */
  predicate SwingHit(p: Paddle, ballAngle: real)
  {
    || (p.keyPressed && p.angle > PADDLE_MINIMUM_ANGLE)
    || (!p.flipped && ballAngle > p.angle as real)
    || (p.flipped && ballAngle < p.angle as real && ballAngle > 0.0)
  }

  /** A paddle hit. A swing bounces the ball off the collider with extra speed growing with the
      collider's distance from the hinge. Otherwise the ball is slowed to at most 2, bounced off,
      then set rolling horizontally at speed 2 on the side of the hinge it is on, away from the
      hinge when the paddle is tilted down and back towards it otherwise. */
  function PaddleResponse(lib: Library, p: Paddle, b: Ball, collider: Shape): (r: Response)
    ensures r.ball.previousPosition == b.previousPosition
    ensures SwingHit(p, lib.atan2(p.pivot.y - b.position.y, p.pivot.x - b.position.x)) ==>
              r.ball == BouncePoint(lib, b, collider.center, lib.dist(p.pivot, collider.center) / PADDLE_FORCE)
    ensures r.sounds == (if SwingHit(p, lib.atan2(p.pivot.y - b.position.y, p.pivot.x - b.position.x))
                         then [Swing] else [])
  {
    var ballAngle := lib.atan2(p.pivot.y - b.position.y, p.pivot.x - b.position.x);
    if SwingHit(p, ballAngle) then
      Response(BouncePoint(lib, b, collider.center, lib.dist(p.pivot, collider.center) / PADDLE_FORCE),
               [Swing])
    else
      var slowed := b.(velocity := lib.limitSpeed(b.velocity, 2.0));
      var bounced := BouncePoint(lib, slowed, collider.center, 0.0);
      var speed := LimitToOne(bounced.position.x - p.pivot.x) as real * 2.0;
      Response(bounced.(velocity := SetSpeed(lib, speed, if p.angle > 0 then 0.0 else 180.0)), [])
  }

  /** A paddle that is not swinging makes the ball roll along it horizontally: away from the
      hinge when the paddle is tilted down (angle > 0) and towards it otherwise, which is downhill
      either way since screen y grows downwards; at speed 2, or 0 when level with the hinge. */
  lemma PaddleRoll(lib: Library, p: Paddle, b: Ball, collider: Shape)
    requires ExactAxes(lib)
    requires !SwingHit(p, lib.atan2(p.pivot.y - b.position.y, p.pivot.x - b.position.x))
    ensures var r := PaddleResponse(lib, p, b, collider).ball;
            var dx := r.position.x - p.pivot.x;
            && r.velocity.y == 0.0
            && (r.velocity.x == 2.0 || r.velocity.x == -2.0 || (dx == 0.0 && r.velocity.x == 0.0))
            && (p.angle > 0 ==> r.velocity.x * dx >= 0.0)
            && (p.angle <= 0 ==> r.velocity.x * dx <= 0.0)
  {
  }

  /** The sand pit: the library pushes the ball out of the pit's whole collider array (both
      slopes), then the ball always creeps at speed 2 towards the middle of the table, where the
      exhaust pipe is. */
  function DeathPitResponse(lib: Library, b: Ball, pit: seq<Shape>): (r: Response)
    ensures r.ball.position == lib.collide(b, pit).position
    ensures r.ball.previousPosition == lib.collide(b, pit).previousPosition
    ensures r.sounds == []
    ensures ExactAxes(lib) ==>
              r.ball.velocity == (if r.ball.position.x < PLAY_AREA_WIDTH / 2.0
                                  then Vec(2.0, 0.0) else Vec(-2.0, 0.0))
  {
    var pushed := lib.collide(b, pit);
    var angle := if pushed.position.x < PLAY_AREA_WIDTH / 2.0 then 0.0 else 180.0;
    Response(pushed.(velocity := SetSpeed(lib, 2.0, angle)), [])
  }

  /** The colliders of entity `e`, in order, where they are in state `s`. */
  function EntityShapes(s: State, a: Arena, e: nat): seq<Shape>
    requires e < |a.entities|
  {
    ShapesFrom(s, a, e, 0)
  }

  /** The colliders `j..` of entity `e`, in order, where they are in state `s`. */
  function ShapesFrom(s: State, a: Arena, e: nat, j: nat): seq<Shape>
    requires e < |a.entities|
    decreases a.entities[e].colliders - j
  {
    if j >= a.entities[e].colliders then [] else [a.shapeOf(s, e, j)] + ShapesFrom(s, a, e, j + 1)
  }

  /** What happens to the ball when it overlaps `collider`, one of the colliders `all` of an
      entity tagged `kind`, and the sound played. */
  function BallResponse(s: State, lib: Library, kind: EntityKind, collider: Shape, all: seq<Shape>): (r: Response)
    requires kind.PaddleEntity? ==> kind.number < |s.paddles|
    ensures kind.ExhaustPipe? ==>
              r.ball == s.ball.(position := s.ball.position.(x := PLAY_AREA_WIDTH / 2.0))
    ensures kind.PumpEntity? ==> r.ball.position == s.ball.previousPosition && r.ball.velocity == Zero
    ensures (|| kind.SilverAsteroid? || kind.BronzeAsteroid? || kind.CopperAsteroid?
             || kind.Shield? || kind.Unclassified?) ==> r.ball == Bounce(lib, s.ball, collider)
    ensures kind.Bouncer? ==> r.ball == BouncePoint(lib, s.ball, collider.center, 1.5)
    ensures kind.DeathPit? ==> r == DeathPitResponse(lib, s.ball, all)
    ensures kind.PaddleEntity? ==> r == PaddleResponse(lib, s.paddles[kind.number], s.ball, collider)
    ensures (|| kind.SilverAsteroid? || kind.BronzeAsteroid? || kind.CopperAsteroid?
             || kind.Unclassified?) ==> r.sounds == [Impact]
    ensures kind.Bouncer? || kind.Shield? ==> r.sounds == [Boing]
    ensures kind.DeathPit? || kind.ExhaustPipe? || kind.PumpEntity? ==> r.sounds == []
  {
    var b := s.ball;
    match kind
    case PaddleEntity(n) => PaddleResponse(lib, s.paddles[n], b, collider)
    case DeathPit => DeathPitResponse(lib, b, all)
    case ExhaustPipe => Response(b.(position := b.position.(x := PLAY_AREA_WIDTH / 2.0)), [])
    // the three asteroid cases share one bounce after the fall-through
    case SilverAsteroid => Response(Bounce(lib, b, collider), [Impact])
    case BronzeAsteroid => Response(Bounce(lib, b, collider), [Impact])
    case CopperAsteroid => Response(Bounce(lib, b, collider), [Impact])
    case PumpEntity => Response(UndoMovement(b).(velocity := Zero), [])
    case Bouncer => Response(BouncePoint(lib, b, collider.center, 1.5), [Boing])
    case Shield => Response(Bounce(lib, b, collider), [Boing])
    case Unclassified => Response(Bounce(lib, b, collider), [Impact])
  }

  /** The full response to one overlap: the ball moves as `BallResponse` says, asteroids add
      their points, and a pump collider makes the pump hold the ball. */
  function Respond(s: State, lib: Library, kind: EntityKind, collider: Shape, all: seq<Shape>): (r: Pass)
    requires kind.PaddleEntity? ==> kind.number < |s.paddles|
    ensures Undisturbed(s, r.state)
    ensures r.hits == [kind]
    ensures r.state.score == s.score + HitPoints(kind)
    ensures r.state.pump.isBallHeld == (s.pump.isBallHeld || kind.PumpEntity?)
    ensures r.state.ball == BallResponse(s, lib, kind, collider, all).ball
    ensures r.sounds == BallResponse(s, lib, kind, collider, all).sounds
  {
    var resp := BallResponse(s, lib, kind, collider, all);
    var held := s.pump.isBallHeld || kind.PumpEntity?;
    Pass(s.(ball := resp.ball, score := s.score + HitPoints(kind), pump := s.pump.(isBallHeld := held)),
         [kind], resp.sounds)
  }

  /** The ball, as it is in `s`, overlaps none of the colliders `j..` of entity `e`. */
  predicate ClearOf(s: State, a: Arena, e: nat, j: nat)
    requires e < |a.entities|
  {
    forall k :: j <= k < a.entities[e].colliders ==> !a.lib.overlaps(s.ball, a.shapeOf(s, e, k))
  }

  /** The ball, as it is in `s`, overlaps no collider of the entities `e..`. */
  predicate ClearFrom(s: State, a: Arena, e: nat)
  {
    forall f, k :: e <= f < |a.entities| && 0 <= k < a.entities[f].colliders ==>
      !a.lib.overlaps(s.ball, a.shapeOf(s, f, k))
  }

  /** How many colliders the entities `e..` own together. */
  function ColliderCount(a: Arena, e: nat): nat
    decreases |a.entities| - e
  {
    if e >= |a.entities| then 0 else a.entities[e].colliders + ColliderCount(a, e + 1)
  }

  /** Tests collider `j` of entity `e` against the ball as it is now, and responds if they
      overlap; otherwise nothing happens. */
  function Probe(s: State, a: Arena, e: nat, j: nat): (r: Pass)
    requires e < |a.entities| && Fits(a, |s.paddles|)
    ensures Undisturbed(s, r.state)
    ensures r.hits == if a.lib.overlaps(s.ball, a.shapeOf(s, e, j)) then [a.entities[e].kind] else []
    ensures r.state.score == s.score + Points(r.hits)
    ensures r.state.pump.isBallHeld == (s.pump.isBallHeld || PumpEntity in r.hits)
    ensures r.hits == [] ==> r == Pass(s, [], [])
  {
    var collider := a.shapeOf(s, e, j);
    if a.lib.overlaps(s.ball, collider)
    then Respond(s, a.lib, a.entities[e].kind, collider, EntityShapes(s, a, e))
    else Pass(s, [], [])
  }

  /** Tests and responds to colliders `j..` of entity `e`. Each is tested against the ball as the
      responses before it left it; there is a hit exactly when some collider is overlapped, and
      when none is, nothing happens. */
  function CollideColliders(s: State, a: Arena, e: nat, j: nat): (r: Pass)
    requires e < |a.entities| && Fits(a, |s.paddles|)
    requires j <= a.entities[e].colliders
    ensures Undisturbed(s, r.state)
    ensures r.state.score == s.score + Points(r.hits)
    ensures r.state.pump.isBallHeld == (s.pump.isBallHeld || PumpEntity in r.hits)
    decreases a.entities[e].colliders - j
  {
    if j == a.entities[e].colliders then Pass(s, [], [])
    else
      var first := Probe(s, a, e, j);
      var rest := CollideColliders(first.state, a, e, j + 1);
      PointsConcat(first.hits, rest.hits);
      Then(first, rest)
  }

  /** Tests and responds to every collider of entities `e..`: there is a hit exactly when the
      ball overlaps one of them, and when it overlaps none, nothing happens. */
  function CollideEntities(s: State, a: Arena, e: nat): (r: Pass)
    requires e <= |a.entities| && Fits(a, |s.paddles|)
    ensures Undisturbed(s, r.state)
    ensures r.state.score == s.score + Points(r.hits)
    ensures r.state.pump.isBallHeld == (s.pump.isBallHeld || PumpEntity in r.hits)
    decreases |a.entities| - e
  {
    if e == |a.entities| then Pass(s, [], [])
    else
      var first := CollideColliders(s, a, e, 0);
      var rest := CollideEntities(first.state, a, e + 1);
      PointsConcat(first.hits, rest.hits);
      UndisturbedTrans(s, first.state, rest.state);
      Then(first, rest)
  }

  /** One step of the collider loop: collider `j`, then the colliders after it. */
  lemma CollideCollidersUnfold(s: State, a: Arena, e: nat, j: nat)
    requires e < |a.entities| && Fits(a, |s.paddles|)
    requires j < a.entities[e].colliders
    ensures var first := Probe(s, a, e, j);
            CollideColliders(s, a, e, j) == Then(first, CollideColliders(first.state, a, e, j + 1))
  {
  }

  /** One step of the entity loop: entity `e`'s colliders, then the entities after it. */
  lemma CollideEntitiesUnfold(s: State, a: Arena, e: nat)
    requires e < |a.entities| && Fits(a, |s.paddles|)
    ensures var first := CollideColliders(s, a, e, 0);
            CollideEntities(s, a, e) == Then(first, CollideEntities(first.state, a, e + 1))
  {
  }

  /** Past the last collider of entity `e` there is nothing to test. */
  lemma CollideCollidersEnd(s: State, a: Arena, e: nat)
    requires e < |a.entities| && Fits(a, |s.paddles|)
    ensures CollideColliders(s, a, e, a.entities[e].colliders) == Pass(s, [], [])
    ensures ClearOf(s, a, e, a.entities[e].colliders)
  {
  }

  /** Past the last entity there is nothing to test. */
  lemma CollideEntitiesEnd(s: State, a: Arena)
    requires Fits(a, |s.paddles|)
    ensures CollideEntities(s, a, |a.entities|) == Pass(s, [], [])
    ensures ClearFrom(s, a, |a.entities|)
  {
  }

  /** Every hit of one entity's colliders is that entity's tag, and each collider hits at most
      once. */
  lemma {:induction false} CollideCollidersHits(s: State, a: Arena, e: nat, j: nat)
    requires e < |a.entities| && Fits(a, |s.paddles|)
    requires j <= a.entities[e].colliders
    ensures var r := CollideColliders(s, a, e, j);
            && (forall k :: 0 <= k < |r.hits| ==> r.hits[k] == a.entities[e].kind)
            && |r.hits| <= a.entities[e].colliders - j
    decreases a.entities[e].colliders - j
  {
    hide CollideColliders, Probe;
    if j < a.entities[e].colliders {
      var first := Probe(s, a, e, j);
      var rest := CollideColliders(first.state, a, e, j + 1);
      CollideCollidersUnfold(s, a, e, j);
      CollideCollidersHits(first.state, a, e, j + 1);
      ThenAllOf(CollideColliders(s, a, e, j), first, rest, a.entities[e].kind, a.entities[e].colliders - j - 1);
    } else {
      CollideCollidersEnd(s, a, e);
    }
  }

  /** A pass over the entities `e..` hits at most once per collider. */
  lemma {:induction false} CollideEntitiesCount(s: State, a: Arena, e: nat)
    requires e <= |a.entities| && Fits(a, |s.paddles|)
    ensures |CollideEntities(s, a, e).hits| <= ColliderCount(a, e)
    decreases |a.entities| - e
  {
    hide CollideEntities, CollideColliders;
    if e < |a.entities| {
      var first := CollideColliders(s, a, e, 0);
      var rest := CollideEntities(first.state, a, e + 1);
      CollideEntitiesUnfold(s, a, e);
      CollideCollidersHits(s, a, e, 0);
      CollideEntitiesCount(first.state, a, e + 1);
      ThenCount(CollideEntities(s, a, e), first, rest, a.entities[e].colliders, ColliderCount(a, e + 1));
    } else {
      CollideEntitiesEnd(s, a);
    }
  }

  /** A collider of entity `e` from `j` on responds exactly when the ball overlaps one of them
      (each tested against the ball as the responses before it left it), and when none does,
      nothing happens. */
  lemma {:induction false} CollideCollidersHitIffOverlap(s: State, a: Arena, e: nat, j: nat)
    requires e < |a.entities| && Fits(a, |s.paddles|)
    requires j <= a.entities[e].colliders
    ensures var r := CollideColliders(s, a, e, j);
            && (r.hits == [] <==> ClearOf(s, a, e, j))
            && (r.hits == [] ==> r == Pass(s, [], []))
    decreases a.entities[e].colliders - j
  {
    hide CollideColliders, Probe;
    if j < a.entities[e].colliders {
      var first := Probe(s, a, e, j);
      var rest := CollideColliders(first.state, a, e, j + 1);
      CollideCollidersUnfold(s, a, e, j);
      CollideCollidersHitIffOverlap(first.state, a, e, j + 1);
      ClearOfSplit(s, a, e, j);
      ThenQuiet(s, CollideColliders(s, a, e, j), first, rest, !a.lib.overlaps(s.ball, a.shapeOf(s, e, j)),
                ClearOf(s, a, e, j + 1), ClearOf(first.state, a, e, j + 1));
    } else {
      CollideCollidersEnd(s, a, e);
    }
  }

  /** Some collider of the entities `e..` responds exactly when the ball overlaps one of them,
      and when it overlaps none, nothing happens. */
  lemma {:induction false} CollideEntitiesHitIffOverlap(s: State, a: Arena, e: nat)
    requires e <= |a.entities| && Fits(a, |s.paddles|)
    ensures var r := CollideEntities(s, a, e);
            && (r.hits == [] <==> ClearFrom(s, a, e))
            && (r.hits == [] ==> r == Pass(s, [], []))
    decreases |a.entities| - e
  {
    hide CollideEntities, CollideColliders;
    if e < |a.entities| {
      var first := CollideColliders(s, a, e, 0);
      var rest := CollideEntities(first.state, a, e + 1);
      CollideEntitiesUnfold(s, a, e);
      CollideCollidersHitIffOverlap(s, a, e, 0);
      CollideEntitiesHitIffOverlap(first.state, a, e + 1);
      ClearFromSplit(s, a, e);
      ThenQuiet(s, CollideEntities(s, a, e), first, rest, ClearOf(s, a, e, 0), ClearFrom(s, a, e + 1),
                ClearFrom(first.state, a, e + 1));
    } else {
      CollideEntitiesEnd(s, a);
    }
  }

  lemma ClearOfSplit(s: State, a: Arena, e: nat, j: nat)
    requires e < |a.entities| && j < a.entities[e].colliders
    ensures ClearOf(s, a, e, j) <==> !a.lib.overlaps(s.ball, a.shapeOf(s, e, j)) && ClearOf(s, a, e, j + 1)
  {
  }

  lemma ClearFromSplit(s: State, a: Arena, e: nat)
    requires e < |a.entities|
    ensures ClearFrom(s, a, e) <==> ClearOf(s, a, e, 0) && ClearFrom(s, a, e + 1)
  {
  }

  // The steps below are shared by the loop lemmas. Each one speaks of a pass `whole` made of a
  // first part and the rest, and knows nothing of how the parts were computed.

  /** The whole pass is quiet exactly when both parts are, and a quiet pass leaves `s` alone. */
  lemma ThenQuiet(s: State, whole: Pass, first: Pass, rest: Pass, here: bool, later: bool, laterAfter: bool)
    requires whole == Then(first, rest)
    requires first.hits == [] <==> here
    requires first.hits == [] ==> first == Pass(s, [], [])
    requires rest.hits == [] <==> laterAfter
    requires rest.hits == [] ==> rest == Pass(first.state, [], [])
    requires first.state == s ==> (laterAfter <==> later)
    ensures whole.hits == [] <==> here && later
    ensures whole.hits == [] ==> whole == Pass(s, [], [])
  {
  }

  lemma ThenCount(whole: Pass, first: Pass, rest: Pass, n: int, m: int)
    requires whole == Then(first, rest)
    requires |first.hits| <= n && |rest.hits| <= m
    ensures |whole.hits| <= n + m
  {
  }

  lemma ThenAllOf(whole: Pass, first: Pass, rest: Pass, kind: EntityKind, n: int)
    requires whole == Then(first, rest)
    requires first.hits == [] || first.hits == [kind]
    requires forall k :: 0 <= k < |rest.hits| ==> rest.hits[k] == kind
    requires |rest.hits| <= n
    ensures forall k :: 0 <= k < |whole.hits| ==> whole.hits[k] == kind
    ensures |whole.hits| <= n + 1
  {
  }

  lemma ThenLeads(whole: Pass, first: Pass, rest: Pass, kind: EntityKind)
    requires whole == Then(first, rest)
    requires |first.hits| >= 1 && first.hits[0] == kind
    ensures |whole.hits| >= 1 && whole.hits[0] == kind
  {
    assert whole.hits[0] == first.hits[0];
  }

  lemma ThenSkips(s: State, whole: Pass, first: Pass, rest: Pass)
    requires whole == Then(first, rest)
    requires first == Pass(s, [], [])
    ensures whole.hits == rest.hits
  {
    assert [] + rest.hits == rest.hits;
  }

  /** One full collision pass. It changes only the ball, the score and whether the pump holds
      the ball; the score grows by exactly the points of the asteroids hit, and the pump holds the
      ball afterwards exactly if it held it before or a pump collider was hit. Some collider
      responds exactly when the ball overlaps one, at most once per collider, and a ball clear of
      every collider is left alone. */
  function CheckCollision(s: State, a: Arena): (r: Pass)
    requires Fits(a, |s.paddles|)
    ensures Undisturbed(s, r.state)
    ensures r.state.score == s.score + Points(r.hits)
    ensures r.state.score >= s.score
    ensures r.state.pump.isBallHeld == (s.pump.isBallHeld || PumpEntity in r.hits)
    ensures |r.hits| <= ColliderCount(a, 0)
    ensures r.hits == [] <==> ClearFrom(s, a, 0)
    ensures r.hits == [] ==> r == Pass(s, [], [])
  {
    CollideEntitiesHitIffOverlap(s, a, 0);
    CollideEntitiesCount(s, a, 0);
    CollideEntities(s, a, 0)
  }

  /** The first entity in registry order whose colliders the ball overlaps is the first to
      respond. */
  lemma FirstOverlapRespondsFirst(s: State, a: Arena, m: nat)
    requires Fits(a, |s.paddles|) && m < |a.entities|
    requires forall f :: 0 <= f < m ==> ClearOf(s, a, f, 0)
    requires !ClearOf(s, a, m, 0)
    ensures var r := CheckCollision(s, a);
            |r.hits| >= 1 && r.hits[0] == a.entities[m].kind
  {
    FirstOverlapFrom(s, a, 0, m);
  }

  lemma {:induction false} FirstOverlapFrom(s: State, a: Arena, e: nat, m: nat)
    requires Fits(a, |s.paddles|) && e <= m < |a.entities|
    requires forall f :: e <= f < m ==> ClearOf(s, a, f, 0)
    requires !ClearOf(s, a, m, 0)
    ensures var r := CollideEntities(s, a, e);
            |r.hits| >= 1 && r.hits[0] == a.entities[m].kind
    decreases m - e
  {
    hide CollideEntities, CollideColliders;
    var first := CollideColliders(s, a, e, 0);
    var rest := CollideEntities(first.state, a, e + 1);
    CollideEntitiesUnfold(s, a, e);
    CollideCollidersHitIffOverlap(s, a, e, 0);
    if e < m {
      ThenSkips(s, CollideEntities(s, a, e), first, rest);
      FirstOverlapFrom(s, a, e + 1, m);
    } else {
      CollideCollidersHits(s, a, e, 0);
      ThenLeads(CollideEntities(s, a, e), first, rest, a.entities[m].kind);
    }
  }


  /** Every (entity, collider) pair of entity `e` from collider `j` on, in order. */
  function ColliderTargets(e: nat, j: nat, n: nat): (ts: seq<(nat, nat)>)
    ensures |ts| == if j <= n then n - j else 0
    decreases n - j
  {
    if j >= n then [] else [(e, j)] + ColliderTargets(e, j + 1, n)
  }

  /** The `i`-th pair of that list is collider `j + i` of entity `e`. */
  lemma {:induction false} ColliderTargetsAt(e: nat, j: nat, n: nat)
    ensures forall i :: 0 <= i < |ColliderTargets(e, j, n)| ==> ColliderTargets(e, j, n)[i] == (e, j + i)
    decreases n - j
  {
    if j < n {
      ColliderTargetsAt(e, j + 1, n);
      var ts := ColliderTargets(e, j, n);
      assert ts == [(e, j)] + ColliderTargets(e, j + 1, n);
    }
  }

  /** `(e, j)` comes before `(f, k)` in registry order. */
  predicate Earlier(x: (nat, nat), y: (nat, nat))
  {
    x.0 < y.0 || (x.0 == y.0 && x.1 < y.1)
  }

  /** Every collider of entities `e..`, as (entity, collider) pairs, entity by entity. */
  function Targets(a: Arena, e: nat): seq<(nat, nat)>
    decreases |a.entities| - e
  {
    if e >= |a.entities| then []
    else ColliderTargets(e, 0, a.entities[e].colliders) + Targets(a, e + 1)
  }

  /** The flat list names every collider of entities `e..` exactly once, in registry order. */
  lemma {:induction false} TargetsEnumerate(a: Arena, e: nat)
    ensures var ts := Targets(a, e);
            && (forall f: nat, k: nat :: (f, k) in ts <==> e <= f < |a.entities| && k < a.entities[f].colliders)
            && (forall i, i' :: 0 <= i < i' < |ts| ==> Earlier(ts[i], ts[i']))
            && (forall t :: t in ts ==> e <= t.0)
    decreases |a.entities| - e
  {
    if e < |a.entities| {
      var mine := ColliderTargets(e, 0, a.entities[e].colliders);
      var rest := Targets(a, e + 1);
      ColliderTargetsAt(e, 0, a.entities[e].colliders);
      TargetsEnumerate(a, e + 1);
      assert forall f: nat, k: nat :: (f, k) in mine <==> f == e && k < a.entities[e].colliders by {
        forall f: nat, k: nat | f == e && k < a.entities[e].colliders
          ensures (f, k) in mine
        {
          assert mine[k] == (f, k);
        }
      }
      assert Targets(a, e) == mine + rest;
    }
  }

  /** Two passes one after the other, as one pass. */
  function Then(p: Pass, q: Pass): Pass
  {
    Pass(q.state, p.hits + q.hits, p.sounds + q.sounds)
  }

  /** One iteration of the flat loop: probe the pair's collider, if the pair names an entity. */
  function Visit(s: State, a: Arena, t: (nat, nat)): (r: Pass)
    requires Fits(a, |s.paddles|)
    ensures |r.state.paddles| == |s.paddles|
  {
    if t.0 < |a.entities| then Probe(s, a, t.0, t.1) else Pass(s, [], [])
  }

  /** The collision pass written as a single loop over a flat list of (entity, collider) pairs:
      each overlapped collider gets its entity's response, in list order (a pair naming no entity
      is skipped). */
  function Sweep(s: State, a: Arena, ts: seq<(nat, nat)>): (r: Pass)
    requires Fits(a, |s.paddles|)
    ensures |r.state.paddles| == |s.paddles|
    decreases |ts|
  {
    if |ts| == 0 then Pass(s, [], [])
    else
      var first := Visit(s, a, ts[0]);
      var rest := Sweep(first.state, a, ts[1..]);
      Then(first, rest)
  }

  lemma {:induction false} SweepConcat(s: State, a: Arena, x: seq<(nat, nat)>, y: seq<(nat, nat)>)
    requires Fits(a, |s.paddles|)
    ensures var p := Sweep(s, a, x);
            Sweep(s, a, x + y) == Then(p, Sweep(p.state, a, y))
    decreases |x|
  {
    hide Sweep, Visit;
    if |x| == 0 {
      assert x + y == y;
      SweepEmpty(s, a);
      ThenNothing(s, Sweep(s, a, y));
    } else {
      var first := Visit(s, a, x[0]);
      var p1 := Sweep(first.state, a, x[1..]);
      SweepConcat(first.state, a, x[1..], y);
      assert (x + y)[0] == x[0] && (x + y)[1..] == x[1..] + y;
      SweepUnfold(s, a, x + y);
      SweepUnfold(s, a, x);
      ThenRegroup(Sweep(s, a, x + y), first, Sweep(first.state, a, x[1..] + y), p1, Sweep(p1.state, a, y),
                  Sweep(s, a, x));
    }
  }

  lemma VisitProbe(s: State, a: Arena, e: nat, j: nat)
    requires e < |a.entities| && Fits(a, |s.paddles|)
    ensures Visit(s, a, (e, j)) == Probe(s, a, e, j)
  {
  }

  lemma SweepEmpty(s: State, a: Arena)
    requires Fits(a, |s.paddles|)
    ensures Sweep(s, a, []) == Pass(s, [], [])
  {
  }

  lemma SweepUnfold(s: State, a: Arena, ts: seq<(nat, nat)>)
    requires Fits(a, |s.paddles|) && |ts| > 0
    ensures var first := Visit(s, a, ts[0]);
            Sweep(s, a, ts) == Then(first, Sweep(first.state, a, ts[1..]))
  {
  }

  lemma ThenRegroup(whole: Pass, first: Pass, restAll: Pass, mid: Pass, last: Pass, front: Pass)
    requires whole == Then(first, restAll)
    requires restAll == Then(mid, last)
    requires front == Then(first, mid)
    ensures whole == Then(front, last)
  {
    ThenAssoc(first, mid, last);
  }

  lemma ThenSame(whole: Pass, first: Pass, rest: Pass, other: Pass, first': Pass, rest': Pass)
    requires whole == Then(first, rest) && other == Then(first', rest')
    requires first == first' && rest == rest'
    ensures whole == other
  {
  }

  lemma ThenNothing(s: State, q: Pass)
    ensures Then(Pass(s, [], []), q) == q
  {
    assert [] + q.hits == q.hits && [] + q.sounds == q.sounds;
  }

  lemma ThenAssoc(p: Pass, q: Pass, u: Pass)
    ensures Then(p, Then(q, u)) == Then(Then(p, q), u)
  {
    assert p.hits + (q.hits + u.hits) == (p.hits + q.hits) + u.hits;
    assert p.sounds + (q.sounds + u.sounds) == (p.sounds + q.sounds) + u.sounds;
  }

  lemma {:induction false} CollideCollidersIsSweep(s: State, a: Arena, e: nat, j: nat)
    requires e < |a.entities| && Fits(a, |s.paddles|)
    requires j <= a.entities[e].colliders
    ensures CollideColliders(s, a, e, j) == Sweep(s, a, ColliderTargets(e, j, a.entities[e].colliders))
    decreases a.entities[e].colliders - j
  {
    hide CollideColliders, Probe, Sweep, Visit;
    var n := a.entities[e].colliders;
    if j < n {
      var ts := ColliderTargets(e, j, n);
      ColliderTargetsAt(e, j, n);
      var first := Probe(s, a, e, j);
      assert ts[0] == (e, j) && ts[1..] == ColliderTargets(e, j + 1, n);
      CollideCollidersUnfold(s, a, e, j);
      SweepUnfold(s, a, ts);
      VisitProbe(s, a, e, j);
      CollideCollidersIsSweep(first.state, a, e, j + 1);
    } else {
      CollideCollidersEnd(s, a, e);
      SweepEmpty(s, a);
    }
  }

  lemma {:induction false} CollideEntitiesIsSweep(s: State, a: Arena, e: nat)
    requires e <= |a.entities| && Fits(a, |s.paddles|)
    ensures CollideEntities(s, a, e) == Sweep(s, a, Targets(a, e))
    decreases |a.entities| - e
  {
    hide CollideEntities, CollideColliders, Sweep;
    if e < |a.entities| {
      var mine := ColliderTargets(e, 0, a.entities[e].colliders);
      var rest := Targets(a, e + 1);
      assert Targets(a, e) == mine + rest;
      var first := CollideColliders(s, a, e, 0);
      CollideEntitiesUnfold(s, a, e);
      CollideCollidersIsSweep(s, a, e, 0);
      CollideEntitiesIsSweep(first.state, a, e + 1);
      SweepConcat(s, a, mine, rest);
      var swept := Sweep(s, a, mine);
      ThenSame(CollideEntities(s, a, e), first, CollideEntities(first.state, a, e + 1),
               Sweep(s, a, mine + rest), swept, Sweep(swept.state, a, rest));
    } else {
      CollideEntitiesEnd(s, a);
      SweepEmpty(s, a);
    }
  }

  /** The nested pass over entities and their colliders is the flat loop over every collider of
      the table in registry order. */
  lemma CheckCollisionIsSweep(s: State, a: Arena)
    requires Fits(a, |s.paddles|)
    ensures CheckCollision(s, a) == Sweep(s, a, Targets(a, 0))
  {
    CollideEntitiesIsSweep(s, a, 0);
  }
}

=== FILE: game.dfy ===
/** One frame of the game, pause/rewind/replay, and the key and button events.

    An unpaused frame: (once, after a pause) restore the live state from the newest recorded frame,
    move the paddles, run the pump, record the frame, check whether the ball fell out, move the
    ball in three collision-checked sub-steps, and, after a game over, advance the replay. A paused
    frame: pop one recorded frame if rewinding, then show the newest recorded frame with the ball
    held still. The floating platform moves on every frame, paused or not. */
module Game {
  import opened JsValue
  import opened Kinematics
  import opened Paddles
  import opened Pumps
  import opened Platforms
  import opened Timeline
  import opened GameState
  import opened Collision

  /** A frame can read a recorded frame that does not exist: a replay index past the end of the
      recording, or an `undefined` replay index. The ball's history is the first item of the
      record, so the game's first read of such a frame is the ball's position, which fails with an
      error that abandons the rest of the frame before any paddle or the platform is touched. The
      model stops there too and reports the index it tried. */
  datatype Outcome<T> = Running(value: T) | ReplayPastRecording(frame: Slot<int>)

  /** A frame's new state and the sounds it played. */
  datatype Step = Step(state: State, sounds: seq<Sound>)

  /** `checkFail`: a ball below the canvas costs a life and respawns at the start, at rest; with
      no life left the game is over instead. The test meant to restart the replay at frame 0 is the
      assignment `isGameOver = false`, whose value is false, so the replay index is never reset. */
  function CheckFail(s: State): (r: State)
    ensures s.ball.position.y <= CANVAS_HEIGHT ==> r == s
    ensures s.ball.position.y > CANVAS_HEIGHT && s.lives > 0 ==>
              r == s.(lives := s.lives - 1, ball := ResetBall(s.ball))
    ensures s.ball.position.y > CANVAS_HEIGHT && s.lives <= 0 ==>
              r == s.(isGameOver := true)
    ensures r.pointInTime == s.pointInTime
    ensures s.lives >= 0 ==> r.lives >= 0
    ensures r.isGameOver && !s.isGameOver ==> r.lives == s.lives && s.lives <= 0
  {
    if s.ball.position.y > CANVAS_HEIGHT then
      if s.lives > 0 then
        s.(lives := s.lives - 1, ball := ResetBall(s.ball))
      else
        var cleared := s.(isGameOver := false);
        var restarted := if cleared.isGameOver then cleared.(pointInTime := Defined(0)) else cleared;
        restarted.(isGameOver := true)
    else
      s
  }

  /** The fall check does not look at the recording. */
  lemma CheckFailIgnoresRecord(s: State, record: Record)
    ensures CheckFail(s.(record := record)) == CheckFail(s).(record := record)
  {
  }

  /** The paddles with the given angles. */
  function WithAngles(ps: seq<Paddle>, angles: seq<int>): (r: seq<Paddle>)
    requires |angles| == |ps|
    ensures |r| == |ps|
    ensures forall i :: 0 <= i < |ps| ==> r[i] == ps[i].(angle := angles[i])
  {
    seq(|ps|, i requires 0 <= i < |ps| => ps[i].(angle := angles[i]))
  }

  /** `t` differs from `s` at most in what a frame records (paddle angles, platform location,
      ball position and velocity, game variables) and in whether the game was paused. */
  predicate OnlyRecordedChange(s: State, t: State)
  {
    && |t.paddles| == |s.paddles|
    && (forall i :: 0 <= i < |s.paddles| ==> t.paddles[i] == s.paddles[i].(angle := t.paddles[i].angle))
    && t.pump == s.pump && t.platform.direction == s.platform.direction
    && t.ball.previousPosition == s.ball.previousPosition
    && t.record == s.record && t.isPaused == s.isPaused && t.isRewinding == s.isRewinding
  }

  /** `resumeGame`: paddle angles, platform location, ball position and velocity come back from
      the newest recorded frame; the game variables are left as they are. */
  function ResumeGame(s: State): (r: State)
    requires Synced(s.record, |s.paddles|)
    ensures OnlyRecordedChange(s, r) && r.wasPaused == s.wasPaused
    ensures Snap(r) == Latest(s.record).(score := s.score, lives := s.lives, isGameOver := s.isGameOver,
                                         pointInTime := s.pointInTime)
  {
    var x := Latest(s.record);
    var r := s.(paddles := WithAngles(s.paddles, x.angles),
                platform := s.platform.(location := x.location),
                ball := s.ball.(position := x.position, velocity := x.velocity));
    assert Snap(r).angles == x.angles;
    r
  }

  /** `pauseGame`: everything recorded comes back from the newest recorded frame, except that the
      ball is held still; and the next unpaused frame will resume. */
  function PauseGame(s: State): (r: State)
    requires Synced(s.record, |s.paddles|)
    ensures OnlyRecordedChange(s, r) && r.wasPaused
    ensures Snap(r) == Latest(s.record).(velocity := Zero)
  {
    var x := Latest(s.record);
    var r := s.(wasPaused := true,
                paddles := WithAngles(s.paddles, x.angles),
                platform := s.platform.(location := x.location),
                ball := s.ball.(velocity := Zero, position := x.position),
                score := x.score, lives := x.lives, isGameOver := x.isGameOver,
                pointInTime := x.pointInTime);
    assert Snap(r).angles == x.angles;
    r
  }

  /** `setToPointInTime(frame)`: paddle angles, platform location and ball position come from the
      recorded frame, the ball is held still, and the game variables are left as they are. A frame
      that was never recorded cannot be shown. */
  function SetToPointInTime(s: State, frame: Slot<int>): (r: Outcome<State>)
    requires Synced(s.record, |s.paddles|)
    ensures r.Running? <==> FrameAt(s.record, frame).Defined?
    ensures r.Running? ==> OnlyRecordedChange(s, r.value) && r.value.wasPaused == s.wasPaused
    ensures r.Running? ==>
              var f := FrameAt(s.record, frame).value;
              Snap(r.value) == Snap(s).(angles := f.angles, location := f.location,
                                        position := f.position, velocity := Zero)
  {
    match FrameAt(s.record, frame)
    case Undefined => ReplayPastRecording(frame)
    case Defined(f) =>
      var t := s.(paddles := WithAngles(s.paddles, f.angles),
                  platform := s.platform.(location := f.location),
                  ball := s.ball.(velocity := Zero, position := f.position));
      assert Snap(t).angles == f.angles;
      Running(t)
  }

  /** `playReplay`: after a game over, advance the replay index and show that recorded frame. */
  function PlayReplay(s: State): (r: Outcome<State>)
    requires Synced(s.record, |s.paddles|)
    ensures !s.isGameOver ==> r == Running(s)
    ensures s.isGameOver ==> (r.Running? <==> FrameAt(s.record, Increment(s.pointInTime)).Defined?)
    ensures s.isGameOver && r.Running? ==>
              var f := FrameAt(s.record, Increment(s.pointInTime)).value;
              && OnlyRecordedChange(s, r.value) && r.value.wasPaused == s.wasPaused
              && Snap(r.value) == Snap(s).(angles := f.angles, location := f.location, position := f.position,
                                           velocity := Zero, pointInTime := Increment(s.pointInTime))
  {
    if s.isGameOver then
      var p := Increment(s.pointInTime);
      SetToPointInTime(s.(pointInTime := p), p)
    else
      Running(s)
  }

  /** `t` differs from `s` at most in the paddles (not their number), the ball, the score and
      whether the pump holds the ball. */
  predicate PaddlesMoved(s: State, t: State)
  {
    |t.paddles| == |s.paddles| && Undisturbed(s.(paddles := t.paddles), t)
  }

  lemma PaddlesMovedTrans(s: State, t: State, u: State)
    requires PaddlesMoved(s, t) && PaddlesMoved(t, u)
    ensures PaddlesMoved(s, u)
  {
  }

  /** Paddle `i` takes one input-handling step; if it moves, a full collision pass follows at
      once, so that a fast paddle cannot pass through the ball. */
  function PaddleStep(s: State, a: Arena, i: nat): (r: Pass)
    requires i < |s.paddles| && Fits(a, |s.paddles|)
    ensures var moved := s.(paddles := s.paddles[i := HandleInput(s.paddles[i])]);
            && (HandleInput(s.paddles[i]).angle == s.paddles[i].angle ==> r == Pass(moved, [], []))
            && (HandleInput(s.paddles[i]).angle != s.paddles[i].angle ==> r == CheckCollision(moved, a))
    ensures PaddlesMoved(s, r.state)
    ensures r.state.paddles == s.paddles[i := HandleInput(s.paddles[i])]
    ensures r.state.score == s.score + Points(r.hits)
    ensures r.state.pump.isBallHeld == (s.pump.isBallHeld || PumpEntity in r.hits)
  {
    var moved := HandleInput(s.paddles[i]);
    var s1 := s.(paddles := s.paddles[i := moved]);
    if moved.angle != s.paddles[i].angle then CheckCollision(s1, a) else Pass(s1, [], [])
  }

  /** Paddles `i..` each take one input-handling step, in order. */
  function UpdatePaddlesFrom(s: State, a: Arena, i: nat): (r: Pass)
    requires i <= |s.paddles| && Fits(a, |s.paddles|)
    ensures PaddlesMoved(s, r.state)
    ensures forall k :: 0 <= k < |s.paddles| ==>
              r.state.paddles[k] == if k < i then s.paddles[k] else HandleInput(s.paddles[k])
    ensures r.state.score == s.score + Points(r.hits)
    ensures r.state.pump.isBallHeld == (s.pump.isBallHeld || PumpEntity in r.hits)
    decreases |s.paddles| - i
  {
    if i == |s.paddles| then Pass(s, [], [])
    else
      var first := PaddleStep(s, a, i);
      var rest := UpdatePaddlesFrom(first.state, a, i + 1);
      PaddlesMovedTrans(s, first.state, rest.state);
      PointsConcat(first.hits, rest.hits);
      Pass(rest.state, first.hits + rest.hits, first.sounds + rest.sounds)
  }

  /** `updatePaddles`: every paddle takes exactly one input-handling step. */
  function UpdatePaddles(s: State, a: Arena): (r: Pass)
    requires Fits(a, |s.paddles|)
    ensures PaddlesMoved(s, r.state)
    ensures forall k :: 0 <= k < |s.paddles| ==> r.state.paddles[k] == HandleInput(s.paddles[k])
    ensures r.state.score == s.score + Points(r.hits)
    ensures r.state.pump.isBallHeld == (s.pump.isBallHeld || PumpEntity in r.hits)
  {
    UpdatePaddlesFrom(s, a, 0)
  }

  /** `updatePump` applied to the game: the launch moves the ball and plays the launch sound. */
  function PumpFrame(s: State): (r: Step)
    ensures var p := UpdatePump(s.pump, s.ball);
            r.state == s.(pump := p.pump, ball := p.ball) && r.sounds == (if p.launched then [Launch] else [])
  {
    var p := UpdatePump(s.pump, s.ball);
    Step(s.(pump := p.pump, ball := p.ball), if p.launched then [Launch] else [])
  }

  /** Ball sub-steps `loop..2`: every sub-step but the first integrates the ball's position, and
      every one runs a collision pass and caps the ball's speed at 6. */
  function SubSteps(s: State, a: Arena, loop: nat): (r: Pass)
    requires loop <= 3 && Fits(a, |s.paddles|)
    ensures Undisturbed(s, r.state)
    ensures r.state.score == s.score + Points(r.hits)
    ensures r.state.pump.isBallHeld == (s.pump.isBallHeld || PumpEntity in r.hits)
    ensures loop < 3 && CapHolds(a.lib, BALL_SPEED_CAP) ==> a.lib.speedOf(r.state.ball.velocity) <= BALL_SPEED_CAP
    decreases 3 - loop
  {
    if loop == 3 then Pass(s, [], [])
    else
      var first := SubStep(s, a, loop != 0);
      var rest := SubSteps(first.state, a, loop + 1);
      UndisturbedTrans(s, first.state, rest.state);
      PointsConcat(first.hits, rest.hits);
      Pass(rest.state, first.hits + rest.hits, first.sounds + rest.sounds)
  }

  /** The ball's speed limit after every sub-step. */
  const BALL_SPEED_CAP: real := 6.0

  /** One ball sub-step: integrate the position (unless it is the first), run a collision pass on
      the ball where it now is, and only then cap the ball's speed at 6. */
  function SubStep(s: State, a: Arena, integrate: bool): (r: Pass)
    requires Fits(a, |s.paddles|)
    ensures CapHolds(a.lib, BALL_SPEED_CAP) ==> a.lib.speedOf(r.state.ball.velocity) <= BALL_SPEED_CAP
    ensures Undisturbed(s, r.state)
    ensures r.state.score == s.score + Points(r.hits)
    ensures r.state.pump.isBallHeld == (s.pump.isBallHeld || PumpEntity in r.hits)
  {
    var moved := s.(ball := if integrate then a.lib.integrate(s.ball) else s.ball);
    var c := CheckCollision(moved, a);
    var capped := c.state.(ball := c.state.ball.(velocity := a.lib.limitSpeed(c.state.ball.velocity, BALL_SPEED_CAP)));
    Pass(capped, c.hits, c.sounds)
  }

  /** A sub-step hits something exactly when the ball, once moved, overlaps a collider; with no
      collider overlapped, only the integration and the cap happen. The cap is applied to the
      velocity the collision pass left, not to the one before it. */
  lemma SubStepQuiet(s: State, a: Arena, integrate: bool)
    requires Fits(a, |s.paddles|)
    ensures var moved := s.(ball := if integrate then a.lib.integrate(s.ball) else s.ball);
            var r := SubStep(s, a, integrate);
            && (r.hits == [] <==> ClearFrom(moved, a, 0))
            && (r.hits == [] ==>
                  r == Pass(moved.(ball := moved.ball.(velocity := a.lib.limitSpeed(moved.ball.velocity, BALL_SPEED_CAP))), [], []))
            && r.state.ball.velocity == a.lib.limitSpeed(CheckCollision(moved, a).state.ball.velocity, BALL_SPEED_CAP)
  {
  }

  /** `updateBall`: gravity, then three sub-steps. The ball ends within the speed cap. */
  function UpdateBall(s: State, a: Arena): (r: Pass)
    requires Fits(a, |s.paddles|)
    ensures Undisturbed(s, r.state)
    ensures r.state.score == s.score + Points(r.hits)
    ensures r.state.pump.isBallHeld == (s.pump.isBallHeld || PumpEntity in r.hits)
    ensures CapHolds(a.lib, BALL_SPEED_CAP) ==> a.lib.speedOf(r.state.ball.velocity) <= BALL_SPEED_CAP
  {
    SubSteps(s.(ball := Gravity(a.lib, s.ball)), a, 0)
  }

  /** On a table with no colliders, a ball update adds the gravity step to the velocity once,
      before the ball moves; sub-step 0 does not move the ball, and sub-steps 1 and 2 each slow the
      velocity by the ball's friction and then move the ball by it. */
  lemma UpdateBallFreeFlight(s: State, a: Arena)
    requires |a.entities| == 0 && Fits(a, |s.paddles|)
    requires ExactAxes(a.lib) && SpriteFlight(a.lib) && FrictionSlows(a.lib) && CapKeepsSlow(a.lib, BALL_SPEED_CAP)
    requires a.lib.speedOf(Vec(s.ball.velocity.x, s.ball.velocity.y + GRAVITY)) <= BALL_SPEED_CAP
    ensures var p, v := s.ball.position, s.ball.velocity;
            var fallen := Vec(v.x, v.y + GRAVITY);
            var v1 := Vec(0.9965 * fallen.x, 0.9965 * fallen.y);
            var v2 := Vec(0.9965 * v1.x, 0.9965 * v1.y);
            var r := UpdateBall(s, a);
            && r.hits == [] && r.sounds == []
            && r.state == s.(ball := Ball(Vec(p.x + v1.x + v2.x, p.y + v1.y + v2.y), v2, Vec(p.x + v1.x, p.y + v1.y)))
  {
    hide SubSteps, SubStep, CheckCollision;
    var g := s.(ball := Gravity(a.lib, s.ball));
    FreeFlight(g, a);
  }

  /** Sub-steps on a table with no colliders, under the sprite update with friction, only move
      the ball. */
  lemma FreeFlight(s: State, a: Arena)
    requires |a.entities| == 0 && Fits(a, |s.paddles|)
    requires SpriteFlight(a.lib) && FrictionSlows(a.lib) && CapKeepsSlow(a.lib, BALL_SPEED_CAP)
    requires a.lib.speedOf(s.ball.velocity) <= BALL_SPEED_CAP
    ensures SubSteps(s, a, 0) == Pass(s.(ball := Drift(Drift(s.ball))), [], [])
  {
    hide SubSteps, SubStep, CheckCollision, CollideEntities;
    var b1 := Drift(s.ball);
    var b2 := Drift(b1);
    assert a.lib.speedOf(b1.velocity) <= a.lib.speedOf(s.ball.velocity);
    FreeSubStep(s, a, false);
    FreeSubStep(s, a, true);
    FreeSubStep(s.(ball := b1), a, true);
    assert s.(ball := b1).(ball := b2) == s.(ball := b2);
    SubStepsUnfold(s, a, 0);
    ThenNothing(s, SubSteps(s, a, 1));
    SubStepsUnfold(s, a, 1);
    ThenNothing(s.(ball := b1), SubSteps(s.(ball := b1), a, 2));
    SubStepsUnfold(s.(ball := b1), a, 2);
    SubStepsEnd(s.(ball := b2), a);
    ThenNothing(s.(ball := b2), SubSteps(s.(ball := b2), a, 3));
  }

  lemma SubStepsUnfold(s: State, a: Arena, loop: nat)
    requires loop < 3 && Fits(a, |s.paddles|)
    ensures var first := SubStep(s, a, loop != 0);
            SubSteps(s, a, loop) == Then(first, SubSteps(first.state, a, loop + 1))
  {
  }

  lemma SubStepsEnd(s: State, a: Arena)
    requires Fits(a, |s.paddles|)
    ensures SubSteps(s, a, 3) == Pass(s, [], [])
  {
  }

  lemma FreeSubStep(s: State, a: Arena, integrate: bool)
    requires |a.entities| == 0 && Fits(a, |s.paddles|)
    requires SpriteFlight(a.lib) && FrictionSlows(a.lib) && CapKeepsSlow(a.lib, BALL_SPEED_CAP)
    requires a.lib.speedOf(s.ball.velocity) <= BALL_SPEED_CAP
    ensures SubStep(s, a, integrate) == Pass(s.(ball := if integrate then Drift(s.ball) else s.ball), [], [])
  {
    var moved := s.(ball := if integrate then a.lib.integrate(s.ball) else s.ball);
    SubStepQuiet(s, a, integrate);
    assert a.lib.speedOf(moved.ball.velocity) <= BALL_SPEED_CAP by {
      if integrate {
        assert moved.ball.velocity == Slowed(s.ball.velocity);
      }
    }
    assert ClearFrom(moved, a, 0);
  }


  /** The replay index names a recorded frame. */
  predicate ReplayInRange(s: State)
  {
    s.pointInTime.Defined? && 0 <= s.pointInTime.value < Frames(s.record)
  }

  /** The start of an unpaused frame: resume once after a pause, move the paddles, run the
      pump. Each paddle takes one input step from its angle, which after a pause is the newest
      recorded one; the platform location comes back from the record after a pause; the pump's
      compression follows the key; the game variables other than the score are untouched. */
  function Prepare(s: State, a: Arena): (r: Step)
    requires Synced(s.record, |s.paddles|) && Fits(a, |s.paddles|)
    ensures r.state.record == s.record && |r.state.paddles| == |s.paddles|
    ensures !r.state.wasPaused && r.state.pointInTime == s.pointInTime
    ensures var from := if s.wasPaused then WithAngles(s.paddles, Latest(s.record).angles) else s.paddles;
            forall k :: 0 <= k < |s.paddles| ==> r.state.paddles[k] == HandleInput(from[k])
    ensures r.state.platform == if s.wasPaused then s.platform.(location := Latest(s.record).location) else s.platform
    ensures r.state.pump.offset == UpdatePump(s.pump, s.ball).pump.offset
    ensures r.state.pump.keyPressed == s.pump.keyPressed
    ensures r.state.lives == s.lives && r.state.isGameOver == s.isGameOver && r.state.score >= s.score
    ensures r.state.isPaused == s.isPaused && r.state.isRewinding == s.isRewinding
  {
    var resumed := if s.wasPaused then ResumeGame(s).(wasPaused := false) else s;
    assert resumed.record == s.record && |resumed.paddles| == |s.paddles|;
    assert !resumed.wasPaused && resumed.pointInTime == s.pointInTime;
    assert resumed.pump == s.pump && resumed.lives == s.lives && resumed.score == s.score;
    assert resumed.platform == if s.wasPaused then s.platform.(location := Latest(s.record).location) else s.platform;
    var paddled := UpdatePaddles(resumed, a);
    var pumped := PumpFrame(paddled.state);
    assert paddled.state.pump.offset == s.pump.offset && paddled.state.pump.keyPressed == s.pump.keyPressed;
    Step(pumped.state, paddled.sounds + pumped.sounds)
  }

  /** The end of an unpaused frame before the replay: check for a lost ball, move the ball. The
      lives and the game-over flag are decided by the fall check on the ball as it was before it
      moves this frame; the ball update then changes only the ball, the score and the pump's hold. */
  function Conclude(s: State, a: Arena): (r: Step)
    requires Fits(a, |s.paddles|)
    ensures r.state.record == s.record && |r.state.paddles| == |s.paddles|
    ensures r.state.wasPaused == s.wasPaused && r.state.pointInTime == s.pointInTime
    ensures Undisturbed(CheckFail(s), r.state)
    ensures r.state.lives == CheckFail(s).lives && r.state.isGameOver == CheckFail(s).isGameOver
    ensures r.state.score >= s.score
    ensures CapHolds(a.lib, BALL_SPEED_CAP) ==> a.lib.speedOf(r.state.ball.velocity) <= BALL_SPEED_CAP
  {
    var failed := CheckFail(s);
    var rolled := UpdateBall(failed, a);
    Step(rolled.state, rolled.sounds)
  }

  /** The unpaused part of a frame before the replay: prepare, record the frame, conclude. The
      frame recorded is the state after the paddles and the pump have moved and before the fall
      check and the ball update. */
  function Advance(s: State, a: Arena): (r: Step)
    requires Synced(s.record, |s.paddles|) && Fits(a, |s.paddles|)
    ensures Synced(r.state.record, |s.paddles|) && |r.state.paddles| == |s.paddles|
    ensures Frames(r.state.record) == Frames(s.record) + 1
    ensures !r.state.wasPaused && r.state.pointInTime == s.pointInTime
    ensures var prepared := Prepare(s, a).state;
            && r.state.record == Append(s.record, Snap(prepared))
            && Latest(r.state.record) == Snap(prepared)
            && r.state.lives == CheckFail(prepared).lives
            && r.state.isGameOver == CheckFail(prepared).isGameOver
  {
    var prepared := Prepare(s, a);
    var recorded := RecordFrame(prepared.state);
    var concluded := Conclude(recorded, a);
    CheckFailIgnoresRecord(prepared.state, recorded.record);
    Step(concluded.state, prepared.sounds + concluded.sounds)
  }

  /** The unpaused part of a frame, up to and including the replay. */
  function Play(s: State, a: Arena): (r: Outcome<Step>)
    requires Synced(s.record, |s.paddles|) && Fits(a, |s.paddles|)
    ensures r.Running? ==> Synced(r.value.state.record, |s.paddles|) && |r.value.state.paddles| == |s.paddles|
    ensures r.Running? ==> Frames(r.value.state.record) == Frames(s.record) + 1
    ensures r.Running? ==> !r.value.state.wasPaused
    ensures ReplayInRange(s) ==> r.Running? && ReplayInRange(r.value.state)
  {
    hide Advance, Prepare, Conclude, RecordFrame, CheckFail, UpdateBall, UpdatePaddles;
    var advanced := Advance(s, a);
    assert ReplayInRange(s) ==> PlayReplay(advanced.state).Running? &&
                                ReplayInRange(PlayReplay(advanced.state).value) by {
      if ReplayInRange(s) {
        ReplayAdvancesInRange(advanced.state);
      }
    }
    match PlayReplay(advanced.state)
    case ReplayPastRecording(f) => ReplayPastRecording(f)
    case Running(t) => Running(advanced.(state := t))
  }

  /** `updateRecord` applied to the game: the frame's observable state is appended. */
  function RecordFrame(s: State): (r: State)
    requires Synced(s.record, |s.paddles|)
    ensures Synced(r.record, |s.paddles|) && Frames(r.record) == Frames(s.record) + 1
    ensures Latest(r.record) == Snap(s)
    ensures r == s.(record := Append(s.record, Snap(s)))
  {
    AppendKeepsSynced(s.record, Snap(s));
    LatestOfAppend(s.record, Snap(s));
    s.(record := Append(s.record, Snap(s)))
  }

  /** A replay index one short of the newest frame stays in range after the replay steps it. */
  lemma ReplayAdvancesInRange(s: State)
    requires Synced(s.record, |s.paddles|)
    requires s.pointInTime.Defined? && 0 <= s.pointInTime.value < Frames(s.record) - 1
    ensures PlayReplay(s).Running? && ReplayInRange(PlayReplay(s).value)
  {
  }

  /** The paused part of a frame. */
  function Hold(s: State): (r: State)
    requires Synced(s.record, |s.paddles|)
    ensures Synced(r.record, |s.paddles|) && |r.paddles| == |s.paddles|
    ensures r.record == (if s.isRewinding then Rewind(s.record) else s.record)
    ensures r == PauseGame(s.(record := r.record))
  {
    var rewound := if s.isRewinding then s.(record := Rewind(s.record)) else s;
    RewindKeepsSynced(s.record);
    PauseGame(rewound)
  }

  /** One frame of the game (the `GAME` case of `draw`). */
  function Frame(s: State, a: Arena): (r: Outcome<Step>)
    requires Synced(s.record, |s.paddles|) && Fits(a, |s.paddles|)
    ensures r.Running? ==> Synced(r.value.state.record, |s.paddles|) && |r.value.state.paddles| == |s.paddles|
    ensures !s.isPaused && r.Running? ==> Frames(r.value.state.record) == Frames(s.record) + 1
    ensures s.isPaused ==> r.Running? && r.value.sounds == []
    ensures s.isPaused && s.isRewinding ==> r.value.state.record == Rewind(s.record)
    ensures s.isPaused && !s.isRewinding ==> r.value.state.record == s.record
    ensures !s.isPaused && ReplayInRange(s) ==> r.Running? && ReplayInRange(r.value.state)
  {
    if !s.isPaused then
      match Play(s, a)
      case ReplayPastRecording(f) => ReplayPastRecording(f)
      case Running(st) => Running(st.(state := st.state.(platform := Update(st.state.platform))))
    else
      var t := Hold(s);
      Running(Step(t.(platform := Update(t.platform)), []))
  }

  /** The R key: three lives, no score, not over, ball at the start at rest, and every history but
      the replay index cut back to its first frame. The replay index itself is not reset. */
  function ResetGame(s: State): (r: State)
    requires Synced(s.record, |s.paddles|)
    ensures r.lives == START_LIVES && r.score == 0 && !r.isGameOver
    ensures r.ball == ResetBall(s.ball)
    ensures r.record == CutToFirst(s.record)
    ensures r.paddles == s.paddles && r.platform == s.platform && r.pump == s.pump
    ensures r.pointInTime == s.pointInTime
    ensures r.isPaused == s.isPaused && r.wasPaused == s.wasPaused && r.isRewinding == s.isRewinding
  {
    s.(lives := START_LIVES, score := 0, record := CutToFirst(s.record),
       ball := ResetBall(s.ball), isGameOver := false)
  }

  /** Resetting twice is the same as resetting once. */
  lemma ResetGameIdempotent(s: State)
    requires Synced(s.record, |s.paddles|)
    ensures Synced(ResetGame(s).record, |s.paddles|)
    ensures ResetGame(ResetGame(s)) == ResetGame(s)
  {
    CutToFirstIdempotent(s.record);
  }

  /** The R key leaves the replay index where it was while cutting the recording back to one
      frame, so once the index has moved past the first frame it no longer names a recorded
      frame, and the next game over replays past the end of the recording. */
  lemma ResetStrandsReplayIndex(s: State, a: Arena)
    requires Synced(s.record, |s.paddles|) && Fits(a, |s.paddles|)
    requires s.pointInTime.Defined? && s.pointInTime.value >= 1
    ensures !ReplayInRange(ResetGame(s))
    ensures PlayReplay(ResetGame(s).(isGameOver := true)).ReplayPastRecording?
  {
  }

  /** The platform can leave its travel. The R key cuts the location history back to its first
      entry, 0, without touching the live platform; pausing then puts the platform back at 0 but
      keeps its direction, and the platform update, which runs on paused frames too, steps a
      platform that was moving left to -1. */
  lemma ResetThenPauseLeavesTravel(s: State, a: Arena)
    requires Synced(s.record, |s.paddles|) && Fits(a, |s.paddles|)
    requires !s.isPaused && !s.isRewinding
    requires s.platform.direction == -1 && s.record.location[0] == 0
    ensures var t := KeyDown(KeyDown(s, RKey), PKey);
            var r := Frame(t, a);
            && Synced(t.record, |s.paddles|) && Fits(a, |t.paddles|)
            && r.Running? && r.value.state.platform.location == -1
  {
    var t := KeyDown(KeyDown(s, RKey), PKey);
    assert t.isPaused && !t.isRewinding;
    assert Latest(t.record).location == 0;
  }

  /** The keys the game reacts to. The remaining keys only act in developer mode, which is off,
      or leave the game for the menu (Esc), which is outside this model. */
  datatype Key = ZKey | PeriodKey | SpaceKey | PKey | RKey | OtherKey

  /** `keyPressed` during a game. */
  function KeyDown(s: State, k: Key): (r: State)
    requires Synced(s.record, |s.paddles|)
    ensures |r.paddles| == |s.paddles| && Synced(r.record, |s.paddles|)
    ensures k.PKey? ==> r == (if s.isRewinding then s else s.(isPaused := !s.isPaused))
    ensures k.ZKey? ==> r == s.(paddles := SetKey(s.paddles, false, true))
    ensures k.PeriodKey? ==> r == s.(paddles := SetKey(s.paddles, true, true))
    ensures k.SpaceKey? ==> r == s.(pump := s.pump.(keyPressed := true))
    ensures k.RKey? ==> r == ResetGame(s)
    ensures k.OtherKey? ==> r == s
  {
    match k
    case PKey =>
      // pausing must not interrupt a rewind, which uses the pause itself
      if !s.isRewinding then s.(isPaused := !s.isPaused) else s
    case ZKey => s.(paddles := SetKey(s.paddles, false, true))
    case PeriodKey => s.(paddles := SetKey(s.paddles, true, true))
    case SpaceKey => s.(pump := s.pump.(keyPressed := true))
    case RKey => ResetGame(s)
    case OtherKey => s
  }

  /** `keyReleased` during a game. */
  function KeyUp(s: State, k: Key): (r: State)
    ensures r.record == s.record && |r.paddles| == |s.paddles|
    ensures k.ZKey? ==> r == s.(paddles := SetKey(s.paddles, false, false))
    ensures k.PeriodKey? ==> r == s.(paddles := SetKey(s.paddles, true, false))
    ensures k.SpaceKey? ==> r == s.(pump := s.pump.(keyPressed := false))
    ensures !(k.ZKey? || k.PeriodKey? || k.SpaceKey?) ==> r == s
  {
    match k
    case ZKey => s.(paddles := SetKey(s.paddles, false, false))
    case PeriodKey => s.(paddles := SetKey(s.paddles, true, false))
    case SpaceKey => s.(pump := s.pump.(keyPressed := false))
    case _ => s
  }

  /** The rewind button pressed (`startRewind`) and released (`stopRewind`). */
  function StartRewind(s: State): (r: State)
    ensures r.record == s.record && r.paddles == s.paddles
    ensures r.isPaused && r.isRewinding
    ensures r.(isPaused := s.isPaused, isRewinding := s.isRewinding) == s
  {
    s.(isPaused := true, isRewinding := true)
  }

  function StopRewind(s: State): (r: State)
    ensures r.record == s.record && r.paddles == s.paddles
    ensures !r.isPaused && !r.isRewinding
    ensures r.(isPaused := s.isPaused, isRewinding := s.isRewinding) == s
  {
    s.(isPaused := false, isRewinding := false)
  }

  datatype Event = Press(key: Key) | Release(key: Key) | RewindPressed | RewindReleased | Tick

  /** The state after one event; `Tick` is a frame. */
  function Apply(s: State, e: Event, a: Arena): (r: Outcome<State>)
    requires Synced(s.record, |s.paddles|) && Fits(a, |s.paddles|)
    ensures r.Running? ==> Synced(r.value.record, |s.paddles|) && |r.value.paddles| == |s.paddles|
  {
    hide Frame, Play, Hold, KeyDown, KeyUp, StartRewind, StopRewind;
    match e
    case Press(k) => Running(KeyDown(s, k))
    case Release(k) => Running(KeyUp(s, k))
    case RewindPressed => Running(StartRewind(s))
    case RewindReleased => Running(StopRewind(s))
    case Tick =>
      match Frame(s, a)
      case ReplayPastRecording(f) => ReplayPastRecording(f)
      case Running(st) => Running(st.state)
  }

  /** The state after a sequence of events, stopping at the first frame that reads past the
      recording. */
  function Run(s: State, events: seq<Event>, a: Arena): (r: Outcome<State>)
    requires Synced(s.record, |s.paddles|) && Fits(a, |s.paddles|)
    ensures r.Running? ==> Synced(r.value.record, |s.paddles|) && |r.value.paddles| == |s.paddles|
    decreases |events|
  {
    if |events| == 0 then Running(s)
    else
      match Apply(s, events[0], a)
      case ReplayPastRecording(f) => ReplayPastRecording(f)
      case Running(t) => Run(t, events[1..], a)
  }
}

=== FILE: gamestate.dfy ===
/** The whole mutable simulation state of a game in progress, gathered in one record, and the
    static description of the table the ball collides with. */
module GameState {
  import opened JsValue
  import opened Kinematics
  import opened Paddles
  import opened Pumps
  import opened Platforms
  import opened Timeline

  const START_LIVES: int := 3

  datatype State = State(
    paddles: seq<Paddle>,
    pump: Pump,
    platform: Platform,
    ball: Ball,
    score: int,
    lives: int,
    isGameOver: bool,
    pointInTime: Slot<int>,   // the replay index
    isPaused: bool,
    wasPaused: bool,
    isRewinding: bool,
    record: Record)

  /** The behaviour tag of an entity, which selects its collision response. `Unclassified` covers
      the side walls (no tag), the pump wall and the floating platform, which all take the
      default response. A paddle entity is the paddle with that number. */
  datatype EntityKind =
    | PaddleEntity(number: nat)
    | DeathPit
    | ExhaustPipe
    | SilverAsteroid
    | BronzeAsteroid
    | CopperAsteroid
    | PumpEntity
    | Bouncer
    | Shield
    | Unclassified

  /** An entity of the table: its tag and how many colliders it owns. */
  datatype Entity = Entity(kind: EntityKind, colliders: nat)

  /** The table: its entities in registry order, where collider `j` of entity `e` is in a given
      state (paddle colliders follow their paddle's angle, the platform and the pump end follow
      their positions), and the library operations. */
  datatype Arena = Arena(entities: seq<Entity>, shapeOf: (State, nat, nat) -> Shape, lib: Library)

  /** Every paddle entity names one of the `paddleCount` paddles. */
  predicate Fits(a: Arena, paddleCount: nat)
  {
    forall e :: 0 <= e < |a.entities| && a.entities[e].kind.PaddleEntity? ==>
      a.entities[e].kind.number < paddleCount
  }

  /** The observable state that a frame records. */
  function Snap(s: State): (x: Snapshot)
    ensures |x.angles| == |s.paddles|
    ensures forall i :: 0 <= i < |s.paddles| ==> x.angles[i] == s.paddles[i].angle
    ensures x.location == s.platform.location && x.position == s.ball.position
    ensures x.velocity == s.ball.velocity && x.score == s.score && x.lives == s.lives
    ensures x.isGameOver == s.isGameOver && x.pointInTime == s.pointInTime
  {
    Snapshot(seq(|s.paddles|, i requires 0 <= i < |s.paddles| => s.paddles[i].angle),
             s.platform.location, s.ball.position, s.ball.velocity,
             s.score, s.lives, s.isGameOver, s.pointInTime)
  }

  /** The four paddles: a big and a small one on the left facing right, and their mirror images
      on the right, facing left. */
  function StartPaddles(): (ps: seq<Paddle>)
    ensures |ps| == 4
    ensures forall i :: 0 <= i < 4 ==> ps[i].angle == PADDLE_MAXIMUM_ANGLE && !ps[i].keyPressed
    ensures !ps[0].flipped && !ps[1].flipped && ps[2].flipped && ps[3].flipped
  {
    var big := Vec(PLAY_AREA_WIDTH / 3.75, CANVAS_HEIGHT - CANVAS_HEIGHT / 3.5);
    var small := Vec(PLAY_AREA_WIDTH / 10.0, CANVAS_HEIGHT / 2.5);
    [ NewPaddle(big, false),
      NewPaddle(small, false),
      NewPaddle(Vec(PLAY_AREA_WIDTH - big.x, big.y), true),
      NewPaddle(Vec(PLAY_AREA_WIDTH - PLAY_AREA_WIDTH / 10.0, small.y), true) ]
  }

  /** The state when a game starts: three lives, no score, ball at rest at the start, platform at
      its left end, and one recorded frame of all of it. */
  function Initial(): (s: State)
    ensures Synced(s.record, |s.paddles|) && Frames(s.record) == 1
    ensures s.lives == START_LIVES && s.score == 0 && !s.isGameOver && s.pointInTime == Defined(0)
    ensures !s.isPaused && !s.isRewinding
  {
    var ball := Ball(BALL_START, Zero, BALL_START);
    var s := State(StartPaddles(), RestingPump, StartPlatform, ball,
                   0, START_LIVES, false, Defined(0), false, false, false,
                   Record([], [], [], [], [], [], [], []));
    s.(record := FirstRecord(Snap(s)))
  }
}

=== FILE: invariants.dfy ===
/** What stays true of a game in progress, whatever the player does and whatever the physics
    library answers: the histories stay synchronised, every paddle angle (live or recorded) is
    one the input handling can reach, lives stay between 0 and 3, the score never goes negative,
    the game is only over with no lives left, the pump stays within its travel, and a rewind only
    happens while paused. */
module Invariants {
  import opened JsValue
  import opened Kinematics
  import opened Paddles
  import opened Pumps
  import opened Platforms
  import opened Timeline
  import opened GameState
  import opened Collision
  import opened Game

  /** Score, lives and game-over flag agree with each other. */
  predicate GameVarsOk(score: int, lives: int, isGameOver: bool)
  {
    score >= 0 && 0 <= lives <= START_LIVES && (isGameOver ==> lives == 0)
  }

  /** Every recorded frame is one the live state could have been in. */
  predicate RecordOk(r: Record)
  {
    && Synced(r, |r.angle|)
    && (forall f :: 0 <= f < Frames(r) ==> GameVarsOk(r.score[f], r.lives[f], r.isGameOver[f]))
    && (forall p, f :: 0 <= p < |r.angle| && 0 <= f < |r.angle[p]| ==> ReachableAngle(r.angle[p][f]))
  }

  predicate AnglesOk(ps: seq<Paddle>)
  {
    forall i :: 0 <= i < |ps| ==> ReachableAngle(ps[i].angle)
  }

  /** The live state, apart from the record. */
  predicate LiveOk(s: State)
  {
    && AnglesOk(s.paddles)
    && GameVarsOk(s.score, s.lives, s.isGameOver)
    && PumpOk(s.pump)
    && UnitDirection(s.platform)
    && (s.isRewinding ==> s.isPaused)
  }

  predicate Inv(s: State)
  {
    |s.record.angle| == |s.paddles| && RecordOk(s.record) && LiveOk(s)
  }

  /** A game starts in a good state. */
  lemma InitialInv()
    ensures Inv(Initial())
  {
    var s := Initial();
    assert forall i :: 0 <= i < |s.paddles| ==> s.paddles[i].angle == PADDLE_MAXIMUM_ANGLE;
  }

  // ---- the record ----

  lemma AppendKeepsOk(r: Record, x: Snapshot)
    requires RecordOk(r) && |x.angles| == |r.angle|
    requires GameVarsOk(x.score, x.lives, x.isGameOver)
    requires forall i :: 0 <= i < |x.angles| ==> ReachableAngle(x.angles[i])
    ensures RecordOk(Append(r, x))
  {
    var r' := Append(r, x);
    AppendKeepsSynced(r, x);
    forall p, f | 0 <= p < |r'.angle| && 0 <= f < |r'.angle[p]|
      ensures ReachableAngle(r'.angle[p][f])
    {
      if f < |r.angle[p]| {
        assert r'.angle[p][f] == r.angle[p][f];
      } else {
        assert r'.angle[p][f] == x.angles[p];
      }
    }
    forall f | 0 <= f < Frames(r')
      ensures GameVarsOk(r'.score[f], r'.lives[f], r'.isGameOver[f])
    {
      if f < Frames(r) {
        assert r'.score[f] == r.score[f] && r'.lives[f] == r.lives[f];
        assert r'.isGameOver[f] == r.isGameOver[f];
      }
    }
  }

  lemma RewindKeepsOk(r: Record)
    requires RecordOk(r)
    ensures RecordOk(Rewind(r))
  {
    RewindKeepsSynced(r);
    var r' := Rewind(r);
    forall p, f | 0 <= p < |r'.angle| && 0 <= f < |r'.angle[p]|
      ensures ReachableAngle(r'.angle[p][f])
    {
      assert r'.angle[p][f] == r.angle[p][f];
    }
    forall f | 0 <= f < Frames(r')
      ensures GameVarsOk(r'.score[f], r'.lives[f], r'.isGameOver[f])
    {
      assert r'.score[f] == r.score[f] && r'.lives[f] == r.lives[f];
      assert r'.isGameOver[f] == r.isGameOver[f];
    }
  }

  lemma CutToFirstKeepsOk(r: Record)
    requires RecordOk(r)
    ensures RecordOk(CutToFirst(r))
  {
    var r' := CutToFirst(r);
    forall p, f | 0 <= p < |r'.angle| && 0 <= f < |r'.angle[p]|
      ensures ReachableAngle(r'.angle[p][f])
    {
      assert r'.angle[p][f] == r.angle[p][0];
    }
    assert GameVarsOk(r.score[0], r.lives[0], r.isGameOver[0]);
  }

  /** What a pause reads back is a good live state. */
  lemma LatestOk(r: Record)
    requires RecordOk(r)
    ensures var x := Latest(r);
            && GameVarsOk(x.score, x.lives, x.isGameOver)
            && forall i :: 0 <= i < |x.angles| ==> ReachableAngle(x.angles[i])
  {
    var n := Frames(r) - 1;
    assert GameVarsOk(r.score[n], r.lives[n], r.isGameOver[n]);
    forall i | 0 <= i < |r.angle|
      ensures ReachableAngle(Latest(r).angles[i])
    {
      assert Latest(r).angles[i] == r.angle[i][n];
    }
  }

  lemma FrameAtOk(r: Record, f: Slot<int>)
    requires RecordOk(r) && FrameAt(r, f).Defined?
    ensures forall i :: 0 <= i < |r.angle| ==> ReachableAngle(FrameAt(r, f).value.angles[i])
  {
    forall i | 0 <= i < |r.angle|
      ensures ReachableAngle(FrameAt(r, f).value.angles[i])
    {
      assert FrameAt(r, f).value.angles[i] == r.angle[i][f.value];
    }
  }

  // ---- the live state ----

  lemma WithAnglesOk(ps: seq<Paddle>, angles: seq<int>)
    requires |angles| == |ps|
    requires forall i :: 0 <= i < |angles| ==> ReachableAngle(angles[i])
    ensures AnglesOk(WithAngles(ps, angles))
  {
  }

  /** A collision pass cannot break the live state: it only moves the ball, raises the score and
      lets the pump hold the ball. */
  lemma UndisturbedKeepsLive(s: State, t: State)
    requires LiveOk(s) && Undisturbed(s, t) && t.score >= s.score
    ensures LiveOk(t) && t.record == s.record && |t.paddles| == |s.paddles|
  {
  }

  lemma UpdatePaddlesKeepsLive(s: State, a: Arena)
    requires LiveOk(s) && Fits(a, |s.paddles|)
    ensures var t := UpdatePaddles(s, a).state;
            LiveOk(t) && t.record == s.record && |t.paddles| == |s.paddles| && t.pointInTime == s.pointInTime
  {
    var t := UpdatePaddles(s, a).state;
    forall i | 0 <= i < |t.paddles|
      ensures ReachableAngle(t.paddles[i].angle)
    {
      HandleInputKeepsReachable(s.paddles[i]);
    }
  }

  lemma PumpFrameKeepsLive(s: State)
    requires LiveOk(s)
    ensures var t := PumpFrame(s).state;
            LiveOk(t) && t.record == s.record && t.paddles == s.paddles && t.pointInTime == s.pointInTime
  {
    UpdatePumpKeepsOk(s.pump, s.ball);
  }

  lemma CheckFailKeepsLive(s: State)
    requires LiveOk(s)
    ensures var t := CheckFail(s);
            LiveOk(t) && t.record == s.record && t.paddles == s.paddles
  {
  }

  lemma PrepareKeepsLive(s: State, a: Arena)
    requires Inv(s) && Fits(a, |s.paddles|)
    ensures LiveOk(Prepare(s, a).state)
  {
    var resumed := if s.wasPaused then ResumeGame(s).(wasPaused := false) else s;
    LatestOk(s.record);
    WithAnglesOk(s.paddles, Latest(s.record).angles);
    assert LiveOk(resumed);
    var paddled := UpdatePaddles(resumed, a);
    UpdatePaddlesKeepsLive(resumed, a);
    PumpFrameKeepsLive(paddled.state);
  }

  lemma ConcludeKeepsLive(s: State, a: Arena)
    requires LiveOk(s) && Fits(a, |s.paddles|)
    ensures LiveOk(Conclude(s, a).state)
  {
    var failed := CheckFail(s);
    CheckFailKeepsLive(s);
    UndisturbedKeepsLive(failed, UpdateBall(failed, a).state);
  }

  /** The part of an unpaused frame before the replay keeps everything good. */
  lemma AdvanceKeepsInv(s: State, a: Arena)
    requires Inv(s) && Fits(a, |s.paddles|)
    ensures Inv(Advance(s, a).state)
  {
    var prepared := Prepare(s, a).state;
    PrepareKeepsLive(s, a);
    AppendKeepsOk(prepared.record, Snap(prepared));
    var recorded := RecordFrame(prepared);
    assert Inv(recorded);
    ConcludeKeepsLive(recorded, a);
  }

  lemma PlayReplayKeepsInv(s: State)
    requires Inv(s) && PlayReplay(s).Running?
    ensures Inv(PlayReplay(s).value)
  {
    if s.isGameOver {
      var p := Increment(s.pointInTime);
      FrameAtOk(s.record, p);
      WithAnglesOk(s.paddles, FrameAt(s.record, p).value.angles);
    }
  }

  lemma HoldKeepsInv(s: State)
    requires Inv(s)
    ensures Inv(Hold(s))
  {
    var rewound := if s.isRewinding then s.(record := Rewind(s.record)) else s;
    RewindKeepsOk(s.record);
    LatestOk(rewound.record);
    WithAnglesOk(s.paddles, Latest(rewound.record).angles);
  }

  /** A frame, paused or not, keeps everything good. */
  lemma FrameKeepsInv(s: State, a: Arena)
    requires Inv(s) && Fits(a, |s.paddles|) && Frame(s, a).Running?
    ensures Inv(Frame(s, a).value.state)
  {
    if !s.isPaused {
      AdvanceKeepsInv(s, a);
      var t := Advance(s, a).state;
      PlayReplayKeepsInv(t);
      UpdateKeepsUnitDirection(PlayReplay(t).value.platform);
    } else {
      HoldKeepsInv(s);
      UpdateKeepsUnitDirection(Hold(s).platform);
    }
  }

  /** Every key and button event keeps everything good. */
  lemma KeyDownKeepsInv(s: State, k: Key)
    requires Inv(s)
    ensures Inv(KeyDown(s, k))
  {
    if k.RKey? {
      CutToFirstKeepsOk(s.record);
    }
  }

  lemma KeyUpKeepsInv(s: State, k: Key)
    requires Inv(s)
    ensures Inv(KeyUp(s, k))
  {
  }

  lemma ApplyKeepsInv(s: State, e: Event, a: Arena)
    requires Inv(s) && Fits(a, |s.paddles|) && Apply(s, e, a).Running?
    ensures Inv(Apply(s, e, a).value)
  {
    match e
    case Press(k) => KeyDownKeepsInv(s, k);
    case Release(k) => KeyUpKeepsInv(s, k);
    case RewindPressed =>
    case RewindReleased =>
    case Tick => FrameKeepsInv(s, a);
  }

  /** However a game goes, as long as the replay has not run past the recording, its state stays
      good. */
  lemma {:induction false} RunKeepsInv(s: State, events: seq<Event>, a: Arena)
    requires Inv(s) && Fits(a, |s.paddles|) && Run(s, events, a).Running?
    ensures Inv(Run(s, events, a).value)
    decreases |events|
  {
    if |events| > 0 {
      ApplyKeepsInv(s, events[0], a);
      RunKeepsInv(Apply(s, events[0], a).value, events[1..], a);
    }
  }

  /** In particular, from the start of a game the lives and score stay in range and the paddles
      never leave their swing. */
  lemma GameStaysInRange(events: seq<Event>, a: Arena)
    requires Fits(a, |Initial().paddles|) && Run(Initial(), events, a).Running?
    ensures var t := Run(Initial(), events, a).value;
            && 0 <= t.lives <= START_LIVES && t.score >= 0 && (t.isGameOver ==> t.lives == 0)
            && forall i :: 0 <= i < |t.paddles| ==> LOWEST_ANGLE <= t.paddles[i].angle <= PADDLE_MAXIMUM_ANGLE
  {
    InitialInv();
    RunKeepsInv(Initial(), events, a);
  }
}

=== FILE: jsvalue.dfy ===
/** JavaScript values that may be `undefined`.

    The game reads past the ends of arrays in a few places (an emptied history, a replay index
    beyond the recorded frames). JavaScript answers such reads with `undefined`, and arithmetic on
    `undefined` gives NaN, which behaves the same way wherever it is later used as an index. */
module JsValue {

  datatype Slot<T> = Undefined | Defined(value: T)

  /** `x++` on a number, or on `undefined`/NaN (which stays not-a-number). */
  function Increment(x: Slot<int>): (r: Slot<int>)
    ensures r.Defined? <==> x.Defined?
    ensures x.Defined? ==> r.value - x.value == 1
  {
    match x
    case Undefined => Undefined
    case Defined(n) => Defined(n + 1)
  }

  /** `h[h.length - 1]`: the newest element, or `undefined` for an empty array. */
  function Newest<T>(h: seq<T>): (r: Slot<T>)
    ensures r.Defined? <==> |h| > 0
    ensures r.Defined? ==> r.value in h && r.value == h[|h| - 1]
  {
    if |h| == 0 then Undefined else Defined(h[|h| - 1])
  }

  /** JavaScript `Array.prototype.pop` for its effect: drops the newest element, and does nothing
      to an empty array. */
  function Pop<T>(h: seq<T>): (r: seq<T>)
    ensures |h| > 0 ==> |r| + 1 == |h|
    ensures |h| == 0 ==> r == []
    ensures r <= h
  {
    if |h| == 0 then h else h[..|h| - 1]
  }
}

=== FILE: kinematics.dfy ===
/** Ball kinematics, shapes, and the small arithmetic helpers of the sketch.

    Coordinates are exact reals (screen pixels, y growing downwards). The p5 and p5.play
    operations whose code is not part of this model are gathered in `Library`: every field is an
    arbitrary total function, so every property proved here holds whatever the library does,
    unless a lemma says which exact values it relies on (`ExactAxes`). */
module Kinematics {

  datatype Vec = Vec(x: real, y: real)

  const Zero: Vec := Vec(0.0, 0.0)

  /** The sketch's play area and canvas (both in pixels). */
  const PLAY_AREA_WIDTH: real := 600.0
  const CANVAS_HEIGHT: real := 700.0

  /** Where the ball starts and respawns: `playAreaWidth - 20`, `canvasHeight / 2`. */
  const BALL_START: Vec := Vec(PLAY_AREA_WIDTH - 20.0, CANVAS_HEIGHT / 2.0)

  /** The pinball sprite: where it is, how fast it moves, and where it was before the last
      position integration (p5.play keeps that last field up to date). */
  datatype Ball = Ball(position: Vec, velocity: Vec, previousPosition: Vec)

  /** A collider: a circle, or an axis-aligned box, centred on `center`. */
  datatype Shape =
    | Circle(center: Vec, diameter: real)
    | Box(center: Vec, width: real, height: real)

  /** The p5 / p5.play operations the simulation calls but whose code is outside this model.
      Angles are in degrees, as the sketch sets `angleMode(DEGREES)`. */
  datatype Library = Library(
    overlaps: (Ball, Shape) -> bool,   // sprite.overlap test of the ball against one collider
    collide: (Ball, seq<Shape>) -> Ball,  // sprite.collide: push the ball out of an entity's colliders
    integrate: Ball -> Ball,           // sprite.update: one position integration step
    limitSpeed: (Vec, real) -> Vec,    // sprite.limitSpeed on the ball's velocity
    speedOf: Vec -> real,              // sprite.getSpeed
    atan2: (real, real) -> real,
    cos: real -> real,
    sin: real -> real,
    dist: (Vec, Vec) -> real,
    ballWidth: real)                   // ball.width as the sprite reports it

  /** The exact trigonometric values at the axis directions the sketch passes as constants. */
  predicate ExactAxes(lib: Library)
  {
    && lib.cos(0.0) == 1.0 && lib.sin(0.0) == 0.0
    && lib.cos(90.0) == 0.0 && lib.sin(90.0) == 1.0
    && lib.cos(180.0) == -1.0 && lib.sin(180.0) == 0.0
  }

  /** p5.play `setSpeed(speed, angle)`: the velocity of that speed in that direction. */
  function SetSpeed(lib: Library, speed: real, angle: real): (v: Vec)
    ensures ExactAxes(lib) && angle == 0.0 ==> v == Vec(speed, 0.0)
    ensures ExactAxes(lib) && angle == 180.0 ==> v == Vec(-speed, 0.0)
  {
    Vec(speed * lib.cos(angle), speed * lib.sin(angle))
  }

  /** p5.play `addSpeed(speed, angle)`: adds that velocity to the current one. */
  function AddSpeed(lib: Library, v: Vec, speed: real, angle: real): (r: Vec)
    ensures ExactAxes(lib) && angle == 90.0 ==> r == Vec(v.x, v.y + speed)
  {
    var d := SetSpeed(lib, speed, angle);
    Vec(v.x + d.x, v.y + d.y)
  }

  /** Sign of a number: 1, -1 or 0. */
  function LimitToOne(value: real): (r: int)
    ensures r == 1 <==> value > 0.0
    ensures r == -1 <==> value < 0.0
    ensures r == 0 <==> value == 0.0
  {
    if value > 0.0 then 1
    else if value < 0.0 then -1
    else 0
  }

  /** Magnitude of a number. */
  function AbsoluteValue(value: real): (r: real)
    ensures r >= 0.0
    ensures r == value || r == -value
  {
    if value < 0.0 then -value else value
  }

  /** Sign and magnitude recombine into the number: the two helpers split a value losslessly. */
  lemma SignTimesMagnitude(value: real)
    ensures LimitToOne(value) as real * AbsoluteValue(value) == value
  {
    if value > 0.0 {
    } else if value < 0.0 {
    } else {
    }
  }

  /** p5 `lerp(start, stop, amt)`. */
  function Lerp(start: real, stop: real, amt: real): (r: real)
    ensures amt == 0.0 ==> r == start
    ensures amt == 1.0 ==> r == stop
    ensures start <= stop && 0.0 <= amt <= 1.0 ==> start <= r <= stop
  {
    var d := stop - start;
    var scaled := amt * d;
    if start <= stop && 0.0 <= amt <= 1.0 then
      ScaleWithin(amt, d);
      assert 0.0 <= scaled <= d;
      scaled + start
    else
      scaled + start
  }

  lemma ScaleWithin(amt: real, d: real)
    requires 0.0 <= amt <= 1.0 && 0.0 <= d
    ensures 0.0 <= amt * d <= d
  {
    MulNonNegative(amt, d);
    MulNonNegative(1.0 - amt, d);
    assert (1.0 - amt) * d == d - amt * d;
  }

  lemma MulNonNegative(x: real, y: real)
    requires 0.0 <= x && 0.0 <= y
    ensures 0.0 <= x * y
  {
  }

  /** Puts the ball back where it was before its last position integration. */
  function UndoMovement(b: Ball): (r: Ball)
    ensures r.position == b.previousPosition
    ensures r.velocity == b.velocity && r.previousPosition == b.previousPosition
  {
    b.(position := b.previousPosition)
  }

  /** Bounce off an axis-aligned box: undo the last move, then point each velocity component away
      from the face the ball centre lies beyond; a component whose axis overlaps the box is kept. */
  function BounceRectangle(b: Ball, center: Vec, width: real, height: real): (r: Ball)
    ensures r.position == b.previousPosition && r.previousPosition == b.previousPosition
    ensures AbsoluteValue(r.velocity.x) == AbsoluteValue(b.velocity.x)
    ensures AbsoluteValue(r.velocity.y) == AbsoluteValue(b.velocity.y)
    ensures r.position.x < center.x - width / 2.0 ==> r.velocity.x <= 0.0
    ensures 0.0 <= width && r.position.x > center.x + width / 2.0 ==> r.velocity.x >= 0.0
    ensures center.x - width / 2.0 <= r.position.x <= center.x + width / 2.0 ==>
              r.velocity.x == b.velocity.x
    ensures r.position.y < center.y - height / 2.0 ==> r.velocity.y <= 0.0
    ensures 0.0 <= height && r.position.y > center.y + height / 2.0 ==> r.velocity.y >= 0.0
    ensures center.y - height / 2.0 <= r.position.y <= center.y + height / 2.0 ==>
              r.velocity.y == b.velocity.y
  {
    var u := UndoMovement(b);
    var vx :=
      if u.position.x < center.x - width / 2.0 then -AbsoluteValue(u.velocity.x)
      else if u.position.x > center.x + width / 2.0 then AbsoluteValue(u.velocity.x)
      else u.velocity.x;
    var vy :=
      if u.position.y < center.y - height / 2.0 then -AbsoluteValue(u.velocity.y)
      else if u.position.y > center.y + height / 2.0 then AbsoluteValue(u.velocity.y)
      else u.velocity.y;
    u.(velocity := Vec(vx, vy))
  }

  /** Bouncing off the same box twice in a row changes nothing more than bouncing once. */
  lemma BounceRectangleIdempotent(b: Ball, center: Vec, width: real, height: real)
    ensures BounceRectangle(BounceRectangle(b, center, width, height), center, width, height)
            == BounceRectangle(b, center, width, height)
  {
  }

  /** A ball falling onto any box from above it (its previous position is above the top face)
      leaves from that previous position, going up at the speed it fell with; its horizontal
      velocity keeps its magnitude. */
  lemma ApproachFromAboveBouncesUp(b: Ball, center: Vec, width: real, height: real)
    requires 0.0 <= width && 0.0 <= height
    requires b.previousPosition.y < center.y - height / 2.0 && b.velocity.y > 0.0
    ensures var r := BounceRectangle(b, center, width, height);
            && r.velocity.y == -b.velocity.y
            && r.position == b.previousPosition
            && r.position.y < center.y - height / 2.0
            && AbsoluteValue(r.velocity.x) == AbsoluteValue(b.velocity.x)
  {
  }

  /** Bounce off a point (the centre of a circle collider) with optional extra speed: the ball is
      moved one ball-width away from the point, and sent off in that same direction at its
      current speed plus `addedForce`. */
  function BouncePoint(lib: Library, b: Ball, point: Vec, addedForce: real): (r: Ball)
    ensures r.previousPosition == b.previousPosition
    ensures r.velocity.x * (r.position.y - b.position.y)
            == r.velocity.y * (r.position.x - b.position.x)
    ensures lib.ballWidth >= 0.0 && lib.speedOf(b.velocity) + addedForce >= 0.0 ==>
              Dot(r.velocity, Between(b.position, r.position)) >= 0.0
    ensures r.velocity == SetSpeed(lib, lib.speedOf(b.velocity) + addedForce,
                                   lib.atan2(b.position.y - point.y, b.position.x - point.x))
  {
    var a := lib.atan2(b.position.y - point.y, b.position.x - point.x);
    var c, s, w := lib.cos(a), lib.sin(a), lib.ballWidth;
    var pushed := Vec(b.position.x + c * w, b.position.y + s * w);
    var total := lib.speedOf(b.velocity) + addedForce;
    var r := b.(position := pushed, velocity := SetSpeed(lib, total, a));
    assert Between(b.position, r.position) == Vec(c * w, s * w);
    ParallelPolar(total, w, c, s);
    assert w >= 0.0 && total >= 0.0 ==> Dot(r.velocity, Between(b.position, r.position)) >= 0.0 by {
      if w >= 0.0 && total >= 0.0 {
        SameWay(total, w, c, s);
      }
    }
    r
  }

  /** The vector from `p` to `q`. */
  function Between(p: Vec, q: Vec): Vec
  {
    Vec(q.x - p.x, q.y - p.y)
  }

  function Dot(u: Vec, v: Vec): real
  {
    u.x * v.x + u.y * v.y
  }

  /** Scaling one direction by two non-negative amounts gives vectors that do not point apart. */
  lemma SameWay(speed: real, width: real, c: real, s: real)
    requires 0.0 <= speed && 0.0 <= width
    ensures (speed * c) * (c * width) + (speed * s) * (s * width) >= 0.0
  {
    var k := speed * width;
    MulNonNegative(speed, width);
    assert (speed * c) * (c * width) == k * (c * c);
    assert (speed * s) * (s * width) == k * (s * s);
    MulNonNegative(k, c * c + s * s);
    assert k * (c * c) + k * (s * s) == k * (c * c + s * s);
  }

  /** Where the library's sine and cosine of the bounce direction lie on the unit circle, the
      point bounce moves the ball exactly one ball width and gives it exactly its old speed plus
      the added force. */
  lemma BouncePointDistances(lib: Library, b: Ball, point: Vec, addedForce: real)
    requires var a := lib.atan2(b.position.y - point.y, b.position.x - point.x);
             lib.cos(a) * lib.cos(a) + lib.sin(a) * lib.sin(a) == 1.0
    ensures var r := BouncePoint(lib, b, point, addedForce);
            var d := Between(b.position, r.position);
            && Dot(d, d) == lib.ballWidth * lib.ballWidth
            && Dot(r.velocity, r.velocity)
               == (lib.speedOf(b.velocity) + addedForce) * (lib.speedOf(b.velocity) + addedForce)
  {
    var a := lib.atan2(b.position.y - point.y, b.position.x - point.x);
    var c, s, w := lib.cos(a), lib.sin(a), lib.ballWidth;
    var total := lib.speedOf(b.velocity) + addedForce;
    var r := BouncePoint(lib, b, point, addedForce);
    assert Between(b.position, r.position) == Vec(c * w, s * w);
    ScaledUnit(w, c, s);
    ScaledUnit(total, c, s);
  }

  lemma ScaledUnit(k: real, c: real, s: real)
    requires c * c + s * s == 1.0
    ensures (c * k) * (c * k) + (s * k) * (s * k) == k * k
    ensures (k * c) * (k * c) + (k * s) * (k * s) == k * k
  {
    assert (c * k) * (c * k) + (s * k) * (s * k) == (c * c + s * s) * (k * k);
    assert (k * c) * (k * c) + (k * s) * (k * s) == (c * c + s * s) * (k * k);
  }

  /** Where the library's bounce direction points from the collision point towards the ball, the
      ball is pushed away from the point and sent off away from it. */
  lemma BouncePointAway(lib: Library, b: Ball, point: Vec, addedForce: real)
    requires var a := lib.atan2(b.position.y - point.y, b.position.x - point.x);
             Dot(Vec(lib.cos(a), lib.sin(a)), Between(point, b.position)) > 0.0
    requires lib.ballWidth >= 0.0 && lib.speedOf(b.velocity) + addedForce >= 0.0
    ensures var r := BouncePoint(lib, b, point, addedForce);
            && Dot(Between(b.position, r.position), Between(point, b.position)) >= 0.0
            && Dot(r.velocity, Between(point, b.position)) >= 0.0
  {
    var a := lib.atan2(b.position.y - point.y, b.position.x - point.x);
    var c, s, w := lib.cos(a), lib.sin(a), lib.ballWidth;
    var total := lib.speedOf(b.velocity) + addedForce;
    var r := BouncePoint(lib, b, point, addedForce);
    var away := Between(point, b.position);
    var along := c * away.x + s * away.y;
    assert Between(b.position, r.position) == Vec(c * w, s * w);
    assert r.velocity == Vec(total * c, total * s);
    assert (c * w) * away.x + (s * w) * away.y == w * along;
    assert (total * c) * away.x + (total * s) * away.y == total * along;
    MulNonNegative(w, along);
    MulNonNegative(total, along);
  }

  /** Velocity and displacement along the same unit direction are parallel. */
  lemma ParallelPolar(speed: real, width: real, c: real, s: real)
    ensures (speed * c) * (s * width) == (speed * s) * (c * width)
  {
    calc {
      (speed * c) * (s * width);
      speed * (c * (s * width));
      speed * (s * (c * width));
      (speed * s) * (c * width);
    }
  }

  /** Generic bounce: box colliders reflect per axis, any other collider is treated as a point. */
  function Bounce(lib: Library, b: Ball, collider: Shape): (r: Ball)
    ensures collider.Box? ==> r == BounceRectangle(b, collider.center, collider.width, collider.height)
    ensures collider.Circle? ==> r == BouncePoint(lib, b, collider.center, 0.0)
    ensures r.previousPosition == b.previousPosition
  {
    match collider
    case Box(c, w, h) => BounceRectangle(b, c, w, h)
    case Circle(c, _) => BouncePoint(lib, b, c, 0.0)
  }

  /** The ball's `friction`: each sprite update takes this fraction of its velocity away. */
  const BALL_FRICTION: real := 0.0035

  /** A velocity after one sprite update's friction. */
  function Slowed(v: Vec): Vec
  {
    Vec((1.0 - BALL_FRICTION) * v.x, (1.0 - BALL_FRICTION) * v.y)
  }

  /** One sprite update of the ball with nothing in the way: friction slows the velocity, the
      position advances by the slowed velocity, and the position before the step becomes the
      previous position. */
  function Drift(b: Ball): Ball
  {
    var v := Slowed(b.velocity);
    Ball(Vec(b.position.x + v.x, b.position.y + v.y), v, b.position)
  }

  /** A library whose sprite update is the one above: a sprite with the ball's friction and no
      maximum speed of its own. */
  ghost predicate SpriteFlight(lib: Library)
  {
    forall b :: lib.integrate(b) == Drift(b)
  }

  /** A library whose speed measure does not grow when friction slows a velocity. */
  ghost predicate FrictionSlows(lib: Library)
  {
    forall v :: lib.speedOf(Slowed(v)) <= lib.speedOf(v)
  }

  /** A library whose speed cap leaves a velocity already within the cap alone. */
  ghost predicate CapKeepsSlow(lib: Library, cap: real)
  {
    forall v :: lib.speedOf(v) <= cap ==> lib.limitSpeed(v, cap) == v
  }

  /** A library whose speed cap does bring every velocity within the cap. */
  ghost predicate CapHolds(lib: Library, cap: real)
  {
    forall v :: lib.speedOf(lib.limitSpeed(v, cap)) <= cap
  }

  /** Respawn: the ball goes to the start position, at rest. */
  function ResetBall(b: Ball): (r: Ball)
    ensures r.position == BALL_START && r.velocity == Zero
    ensures r.previousPosition == b.previousPosition
  {
    b.(position := BALL_START, velocity := Zero)
  }

  /** The speed gravity adds to the ball every frame. */
  const GRAVITY: real := 0.0666

  /** Gravity as the sketch applies it: `addSpeed(0.0666, 90)`, straight down the screen. */
  function Gravity(lib: Library, b: Ball): (r: Ball)
    ensures r.position == b.position && r.previousPosition == b.previousPosition
    ensures ExactAxes(lib) ==> r.velocity == Vec(b.velocity.x, b.velocity.y + GRAVITY)
  {
    b.(velocity := AddSpeed(lib, b.velocity, GRAVITY, 90.0))
  }
}

=== FILE: layout.dfy ===
/** Table layout helpers: the chain of circles that makes a line collider, and the conversion
    between the relative coordinates entities are saved in and absolute canvas coordinates. */
module Layout {
  import opened Kinematics

  /** The thickness of a line collider. */
  const LINE_DIAMETER: real := 25.0
  /** Circles are placed half a diameter apart, so neighbours overlap. */
  const LINE_STEP: real := LINE_DIAMETER / 2.0

  /** How far along the line the `k`-th circle sits. */
  function Offset(k: nat): real
  {
    k as real * LINE_STEP
  }

  /** `createLineCollider`: circles are placed from the first point towards the second, every
      half diameter, for as long as the distance walked is less than the line's length. Exactly
      the circles `k` with `k * 12.5 < length` are made, so the chain reaches the second point or
      overshoots it by less than half a diameter. */
  method CreateLineCollider(lib: Library, from: Vec, to: Vec) returns (colliders: seq<Shape>)
    ensures var total := lib.dist(from, to);
            forall k: nat :: k < |colliders| <==> Offset(k) < total
    ensures var angle := lib.atan2(to.y - from.y, to.x - from.x);
            forall k :: 0 <= k < |colliders| ==>
              colliders[k] == Circle(Vec(from.x + lib.cos(angle) * Offset(k),
                                         from.y + lib.sin(angle) * Offset(k)), LINE_DIAMETER)
  {
    var angle := lib.atan2(to.y - from.y, to.x - from.x);
    var total := lib.dist(from, to);
    colliders := [];
    var current := 0.0;
    while current < total
      invariant current == Offset(|colliders|)
      invariant forall k: nat :: k < |colliders| ==> Offset(k) < total
      invariant forall k :: 0 <= k < |colliders| ==>
                  colliders[k] == Circle(Vec(from.x + lib.cos(angle) * Offset(k),
                                             from.y + lib.sin(angle) * Offset(k)), LINE_DIAMETER)
      decreases (total - current).Floor
    {
      colliders := colliders + [Circle(Vec(from.x + lib.cos(angle) * current,
                                           from.y + lib.sin(angle) * current), LINE_DIAMETER)];
      current := current + LINE_STEP;
    }
    forall k: nat | k >= |colliders|
      ensures Offset(k) >= total
    {
      OffsetMonotone(|colliders|, k);
    }
  }

  lemma OffsetMonotone(j: nat, k: nat)
    requires j <= k
    ensures Offset(j) <= Offset(k)
  {
  }

  /** Saving an entity stores its position as fractions of the play area's width and the
      canvas's height. */
  function ToRelative(p: Vec): (r: Vec)
    ensures 0.0 <= p.x <= PLAY_AREA_WIDTH ==> 0.0 <= r.x <= 1.0
    ensures 0.0 <= p.y <= CANVAS_HEIGHT ==> 0.0 <= r.y <= 1.0
  {
    Vec(p.x / PLAY_AREA_WIDTH, p.y / CANVAS_HEIGHT)
  }

  /** Loading an entity scales its fractions back to the canvas. */
  function ToAbsolute(r: Vec): (p: Vec)
    ensures 0.0 <= r.x <= 1.0 ==> 0.0 <= p.x <= PLAY_AREA_WIDTH
    ensures 0.0 <= r.y <= 1.0 ==> 0.0 <= p.y <= CANVAS_HEIGHT
  {
    Vec(r.x * PLAY_AREA_WIDTH, r.y * CANVAS_HEIGHT)
  }

  /** A saved entity loads back exactly where it was placed, and the other way round (in exact
      arithmetic). */
  lemma CoordinatesRoundTrip(p: Vec, r: Vec)
    ensures ToAbsolute(ToRelative(p)) == p
    ensures ToRelative(ToAbsolute(r)) == r
  {
  }
}

=== FILE: paddles.dfy ===
/** The paddle angle state machine and the keys that drive it.

    A paddle starts at the maximum angle (45 degrees). While its key is held its angle drops by
    6 degrees per frame as long as it is above -46; released, its angle rises by 6 degrees per
    frame while below 45. There is no clamp: the last decreasing step goes from -45 to -51, so the
    angles a paddle can take are exactly 45 - 6k for k in 0..16. */
module Paddles {
  import opened Kinematics

  const PADDLE_SPEED: int := 6
  /** Divisor of the extra bounce force on a swing hit (a lower number gives more force). */
  const PADDLE_FORCE: real := 35.0
  const PADDLE_MINIMUM_ANGLE: int := -46
  const PADDLE_MAXIMUM_ANGLE: int := 45

  /** The lowest angle a held paddle reaches: one step below the last angle above the minimum. */
  const LOWEST_ANGLE: int := -51
  /** The number of downward steps from the maximum angle to the lowest one. */
  const FULL_SWING: nat := 16

  /** A paddle: its hinge on the screen, its angle in degrees, whether its key is held, and whether
      it faces left (a mirrored, "flipped" paddle). */
  datatype Paddle = Paddle(pivot: Vec, angle: int, keyPressed: bool, flipped: bool)

  /** A new paddle rests at the maximum angle with its key up. */
  function NewPaddle(pivot: Vec, flipped: bool): (p: Paddle)
    ensures p.angle == PADDLE_MAXIMUM_ANGLE && !p.keyPressed
    ensures p.pivot == pivot && p.flipped == flipped
  {
    Paddle(pivot, PADDLE_MAXIMUM_ANGLE, false, flipped)
  }

  /** One frame of input handling. */
  function HandleInput(p: Paddle): (r: Paddle)
    ensures r.pivot == p.pivot && r.keyPressed == p.keyPressed && r.flipped == p.flipped
    ensures r.angle == p.angle || r.angle == p.angle - PADDLE_SPEED || r.angle == p.angle + PADDLE_SPEED
    ensures r.angle < p.angle <==> p.keyPressed && p.angle > PADDLE_MINIMUM_ANGLE
    ensures r.angle > p.angle <==> !p.keyPressed && p.angle < PADDLE_MAXIMUM_ANGLE
  {
    if p.keyPressed && p.angle > PADDLE_MINIMUM_ANGLE then
      p.(angle := p.angle - PADDLE_SPEED)
    else if !p.keyPressed && p.angle < PADDLE_MAXIMUM_ANGLE then
      p.(angle := p.angle + PADDLE_SPEED)
    else
      p
  }

  /** The angles a paddle can take: 45 - 6k for k in 0..16. */
  predicate ReachableAngle(a: int)
  {
    LOWEST_ANGLE <= a <= PADDLE_MAXIMUM_ANGLE && (PADDLE_MAXIMUM_ANGLE - a) % PADDLE_SPEED == 0
  }

  /** Input handling never leaves the reachable angles. */
  lemma HandleInputKeepsReachable(p: Paddle)
    requires ReachableAngle(p.angle)
    ensures ReachableAngle(HandleInput(p).angle)
  {
  }

  /** The angle after `n` frames with the key held the whole time (`held`) or released. */
  function AngleAfter(angle: int, held: bool, n: nat): int
    decreases n
  {
    if n == 0 then angle
    else AngleAfter(HandleInput(Paddle(Zero, angle, held, false)).angle, held, n - 1)
  }

  /** Holding the key from rest makes the angle drop by 6 degrees per frame for 16 frames, after
      which it stays at -51: the angle passes below the nominal minimum of -46. */
  lemma {:induction false} HeldFromRest(n: nat)
    ensures AngleAfter(PADDLE_MAXIMUM_ANGLE, true, n)
            == PADDLE_MAXIMUM_ANGLE - PADDLE_SPEED * (if n <= FULL_SWING then n else FULL_SWING)
  {
    HeldFrom(PADDLE_MAXIMUM_ANGLE, n);
  }

  lemma {:induction false} HeldFrom(a: int, n: nat)
    requires ReachableAngle(a)
    ensures var k := (a - LOWEST_ANGLE) / PADDLE_SPEED;
            AngleAfter(a, true, n) == a - PADDLE_SPEED * (if n <= k then n else k)
    decreases n
  {
    if n > 0 {
      var next := HandleInput(Paddle(Zero, a, true, false)).angle;
      HeldFrom(next, n - 1);
    }
  }

  /** Releasing the key makes the angle rise by 6 degrees per frame until it is back at 45. */
  lemma {:induction false} ReleasedFrom(a: int, n: nat)
    requires ReachableAngle(a)
    ensures var k := (PADDLE_MAXIMUM_ANGLE - a) / PADDLE_SPEED;
            AngleAfter(a, false, n) == a + PADDLE_SPEED * (if n <= k then n else k)
    decreases n
  {
    if n > 0 {
      var next := HandleInput(Paddle(Zero, a, false, false)).angle;
      ReleasedFrom(next, n - 1);
    }
  }

  /** Every reachable angle is reached: holding the key from rest for (45 - a) / 6 frames ends
      at `a`. Together with `HandleInputKeepsReachable` this says the reachable angles are
      exactly the values of `ReachableAngle`. */
  lemma EveryReachableAngleIsReached(a: int)
    requires ReachableAngle(a)
    ensures AngleAfter(PADDLE_MAXIMUM_ANGLE, true, (PADDLE_MAXIMUM_ANGLE - a) / PADDLE_SPEED) == a
  {
    HeldFromRest((PADDLE_MAXIMUM_ANGLE - a) / PADDLE_SPEED);
  }

  /** The sprite rotation drawn for a paddle. A flipped paddle uses the real angle
      `-angle - 180`, and its sprite, mirrored vertically, is rotated by the negation of that. */
  function SpriteRotation(p: Paddle): (r: int)
  {
    var realAngle := if p.flipped then -p.angle - 180 else p.angle;
    if p.flipped then -realAngle else realAngle
  }

  /** A flipped paddle is drawn half a turn from an unflipped paddle at the same angle, so over
      the reachable angles the two sides never share a rotation. */
  lemma FlippedRotationIsHalfTurn(p: Paddle)
    requires ReachableAngle(p.angle)
    ensures SpriteRotation(p.(flipped := true)) == SpriteRotation(p.(flipped := false)) + 180
    ensures !p.flipped ==> LOWEST_ANGLE <= SpriteRotation(p) <= PADDLE_MAXIMUM_ANGLE
    ensures p.flipped ==> LOWEST_ANGLE + 180 <= SpriteRotation(p) <= PADDLE_MAXIMUM_ANGLE + 180
  {
  }

  /** A paddle key going down (`down`) or up. `Z` drives the paddles facing right
      (`flippedSide == false`), `.` drives the flipped ones. */
  function SetKey(ps: seq<Paddle>, flippedSide: bool, down: bool): (r: seq<Paddle>)
    ensures |r| == |ps|
    ensures forall i :: 0 <= i < |ps| ==>
              r[i].pivot == ps[i].pivot && r[i].angle == ps[i].angle && r[i].flipped == ps[i].flipped
    ensures forall i :: 0 <= i < |ps| && ps[i].flipped == flippedSide ==> r[i].keyPressed == down
    ensures forall i :: 0 <= i < |ps| && ps[i].flipped != flippedSide ==> r[i] == ps[i]
  {
    seq(|ps|, i requires 0 <= i < |ps| =>
      if ps[i].flipped == flippedSide then ps[i].(keyPressed := down) else ps[i])
  }

  /** The two keys act on disjoint paddles, so their events commute. */
  lemma KeysCommute(ps: seq<Paddle>, down1: bool, down2: bool)
    ensures SetKey(SetKey(ps, false, down1), true, down2) == SetKey(SetKey(ps, true, down2), false, down1)
  {
  }

  /** Pressing then releasing a key leaves that side's paddles released and the other side's as
      they were. */
  lemma PressThenRelease(ps: seq<Paddle>, side: bool)
    ensures var r := SetKey(SetKey(ps, side, true), side, false);
            forall i :: 0 <= i < |ps| ==>
              r[i] == (if ps[i].flipped == side then ps[i].(keyPressed := false) else ps[i])
  {
  }
}

=== FILE: platforms.dfy ===
/** The floating platform that drifts back and forth across the middle of the table.

    Its location is a fraction from 0 to 1 moved by `speed * direction` each frame (speed 0.005);
    the direction turns to -1 once the location reaches 1 and to +1 once it reaches 0. The
    location is kept as a whole number of 1/200 steps, so the drift of repeated `+= 0.005` in
    floating point is not modelled. */
module Platforms {
  import opened Kinematics

  /** Steps of 0.005 from one end to the other. */
  const PLATFORM_STEPS: int := 200
  /** Twice across: the period of the oscillation in frames. */
  const PERIOD: int := 2 * PLATFORM_STEPS

  datatype Platform = Platform(location: int, direction: int)

  const StartPlatform: Platform := Platform(0, 1)

  /** One frame of the platform: move, then turn around at either end. */
  function Update(p: Platform): (r: Platform)
    ensures r.location == p.location + p.direction
    ensures r.location >= PLATFORM_STEPS ==> r.direction == -1
    ensures 0 < r.location < PLATFORM_STEPS ==> r.direction == p.direction
    ensures r.location <= 0 ==> r.direction == 1
  {
    var location := p.location + p.direction;
    var direction :=
      if location >= PLATFORM_STEPS then -1
      else if location <= 0 then 1
      else p.direction;
    Platform(location, direction)
  }

  /** Direction is always one of the two unit values. */
  predicate UnitDirection(p: Platform)
  {
    p.direction == 1 || p.direction == -1
  }

  /** The oscillator's invariant: within its travel, moving in a unit direction, and pointed
      inwards at either end. */
  predicate Oscillating(p: Platform)
  {
    && 0 <= p.location <= PLATFORM_STEPS
    && UnitDirection(p)
    && (p.location == PLATFORM_STEPS ==> p.direction == -1)
    && (p.location == 0 ==> p.direction == 1)
  }

  lemma UpdateKeepsUnitDirection(p: Platform)
    requires UnitDirection(p)
    ensures UnitDirection(Update(p))
  {
  }

  lemma UpdateKeepsOscillating(p: Platform)
    requires Oscillating(p)
    ensures Oscillating(Update(p))
  {
  }

  /** The platform after `n` frames. */
  function UpdateN(p: Platform, n: nat): Platform
    decreases n
  {
    if n == 0 then p else UpdateN(Update(p), n - 1)
  }

  /** The reference motion: a triangle wave of period 400 frames, rising for the first 200. */
  function Triangle(n: nat): Platform
  {
    var t := n % PERIOD;
    if t < PLATFORM_STEPS then Platform(t, 1) else Platform(PERIOD - t, -1)
  }

  /** From its start, the platform follows the triangle wave exactly, forever. */
  lemma {:induction false} FollowsTriangle(n: nat)
    ensures UpdateN(StartPlatform, n) == Triangle(n)
    decreases n
  {
    if n > 0 {
      FollowsTriangle(n - 1);
      UpdateNLast(StartPlatform, n - 1);
      TriangleStep(n - 1);
    }
  }

  lemma {:induction false} UpdateNLast(p: Platform, n: nat)
    ensures UpdateN(p, n + 1) == Update(UpdateN(p, n))
    decreases n
  {
    if n > 0 {
      UpdateNLast(Update(p), n - 1);
    }
  }

  lemma TriangleStep(n: nat)
    ensures Update(Triangle(n)) == Triangle(n + 1)
  {
    var t := n % PERIOD;
    if t == PERIOD - 1 {
      assert (n + 1) % PERIOD == 0;
    } else {
      assert (n + 1) % PERIOD == t + 1;
    }
  }

  /** Horizontal position of the platform: `lerp(width / 4, width - width / 4, location)`. The
      lerp does not clamp: a location outside the travel puts the platform outside the middle
      half of the table, 1.5 pixels per step. */
  function PlatformX(location: int): (x: real)
    ensures x == PLAY_AREA_WIDTH / 4.0 + 1.5 * location as real
    ensures 0 <= location <= PLATFORM_STEPS ==>
              PLAY_AREA_WIDTH / 4.0 <= x <= PLAY_AREA_WIDTH - PLAY_AREA_WIDTH / 4.0
    ensures location == 0 ==> x == PLAY_AREA_WIDTH / 4.0
    ensures location == PLATFORM_STEPS ==> x == PLAY_AREA_WIDTH - PLAY_AREA_WIDTH / 4.0
  {
    Lerp(PLAY_AREA_WIDTH / 4.0, PLAY_AREA_WIDTH - PLAY_AREA_WIDTH / 4.0,
         location as real / PLATFORM_STEPS as real)
  }
}

=== FILE: pumps.dfy ===
/** The pump that launches the ball out of the starting lane.

    Holding the pump key compresses the pump end (a fraction from 0 to 1, in steps of 0.025) and
    builds force (0.15 per step). Released, the end springs back one step per frame, and if the pump
    holds the ball and has force, the ball is lifted 20 pixels and launched straight up with that
    force, which is then spent. The ball becomes held only through the pump's collision response.

    The compression fraction is kept as a whole number of 1/40 steps so that "fully compressed"
    is exactly 40 steps; the floating-point drift of repeated `+= 0.025` is not modelled. */
module Pumps {
  import opened Kinematics

  /** Steps of 0.025 in a full compression. */
  const PUMP_STEPS: int := 40
  const ADDED_FORCE: real := 0.15
  /** How far a launch lifts the ball before giving it speed. */
  const LAUNCH_LIFT: real := 20.0
  /** The pump end travels 5 pixels between released and fully compressed. */
  const END_TRAVEL: real := 5.0

  /** `offset` is the compression in 1/40 steps; `isBallHeld` says the ball rests on the pump. */
  datatype Pump = Pump(offset: int, force: real, isBallHeld: bool, keyPressed: bool)

  const RestingPump: Pump := Pump(0, 0.0, false, false)

  /** What a pump frame leaves behind, and whether it launched the ball (the launch sound). */
  datatype PumpStep = PumpStep(pump: Pump, ball: Ball, launched: bool)

  /** One frame of the pump. */
  function UpdatePump(p: Pump, b: Ball): (r: PumpStep)
    ensures r.pump.keyPressed == p.keyPressed
    ensures p.keyPressed && p.offset < PUMP_STEPS ==>
              r.pump.offset == p.offset + 1 && r.pump.force == p.force + ADDED_FORCE
    ensures p.keyPressed && p.offset >= PUMP_STEPS ==> r.pump == p
    ensures !p.keyPressed ==> r.pump.offset == (if p.offset > 0 then p.offset - 1 else p.offset)
    ensures r.launched <==> !p.keyPressed && p.isBallHeld && p.force > 0.0
    ensures r.launched ==>
              && r.ball.position == Vec(b.position.x, b.position.y - LAUNCH_LIFT)
              && r.ball.velocity == Vec(0.0, -p.force)
              && r.pump.force == 0.0 && !r.pump.isBallHeld
    ensures !r.launched ==> r.ball == b && r.pump.isBallHeld == p.isBallHeld && r.pump.force >= p.force
  {
    if p.keyPressed then
      if p.offset < PUMP_STEPS then
        PumpStep(p.(offset := p.offset + 1, force := p.force + ADDED_FORCE), b, false)
      else
        PumpStep(p, b, false)
    else
      var released := if p.offset > 0 then p.(offset := p.offset - 1) else p;
      if released.isBallHeld && released.force > 0.0 then
        var lifted := Vec(b.position.x, b.position.y - LAUNCH_LIFT);
        PumpStep(released.(force := 0.0, isBallHeld := false),
                 b.(position := lifted, velocity := Vec(0.0, -released.force)), true)
      else
        PumpStep(released, b, false)
  }

  /** The pump's own invariant: compression within its travel, force never negative. */
  predicate PumpOk(p: Pump)
  {
    0 <= p.offset <= PUMP_STEPS && p.force >= 0.0
  }

  /** A pump frame keeps the compression within its travel and the force non-negative, and the
      force goes down only by a launch, which spends all of it. */
  lemma UpdatePumpKeepsOk(p: Pump, b: Ball)
    requires PumpOk(p)
    ensures PumpOk(UpdatePump(p, b).pump)
    ensures UpdatePump(p, b).pump.force < p.force ==> UpdatePump(p, b).launched
  {
  }

  /** Runs the pump over successive frames with the key held or released as `keys` says, while the
      ball is not on the pump. */
  function RunPump(p: Pump, b: Ball, keys: seq<bool>): Pump
    decreases |keys|
  {
    if |keys| == 0 then p
    else RunPump(UpdatePump(p.(keyPressed := keys[0]), b).pump, b, keys[1..])
  }

  /** Force carries over between presses: without the ball on the pump nothing spends it, so over
      any sequence of presses and releases it never decreases, and the ball is never taken. */
  lemma {:induction false} ForceCarriesOver(p: Pump, b: Ball, keys: seq<bool>)
    requires !p.isBallHeld
    ensures RunPump(p, b, keys).force >= p.force
    ensures !RunPump(p, b, keys).isBallHeld
    decreases |keys|
  {
    if |keys| > 0 {
      ForceCarriesOver(UpdatePump(p.(keyPressed := keys[0]), b).pump, b, keys[1..]);
    }
  }

  /** Holding the key from rest for `n` frames compresses the pump `n` steps (up to the full 40)
      and stores 0.15 force per step taken. */
  lemma {:induction false} HoldFromRest(p: Pump, b: Ball, n: nat)
    requires 0 <= p.offset && p.offset + n <= PUMP_STEPS
    ensures var r := RunPump(p, b, seq(n, _ => true));
            r.offset == p.offset + n && r.force == p.force + n as real * ADDED_FORCE
    decreases n
  {
    if n > 0 {
      var q := UpdatePump(p.(keyPressed := true), b).pump;
      assert seq(n, _ => true)[1..] == seq(n - 1, _ => true);
      HoldFromRest(q, b, n - 1);
    }
  }

  /** Vertical position of the pump end: `lerp(boxY, boxY + 5, compression)`. */
  function EndY(boxY: real, offset: int): (y: real)
    requires 0 <= offset <= PUMP_STEPS
    ensures boxY <= y <= boxY + END_TRAVEL
    ensures offset == 0 ==> y == boxY
    ensures offset == PUMP_STEPS ==> y == boxY + END_TRAVEL
  {
    Lerp(boxY, boxY + END_TRAVEL, offset as real / PUMP_STEPS as real)
  }

  /** Further compressed means further down. */
  lemma EndYMonotone(boxY: real, o1: int, o2: int)
    requires 0 <= o1 <= o2 <= PUMP_STEPS
    ensures EndY(boxY, o1) <= EndY(boxY, o2)
  {
    assert o1 as real / 40.0 <= o2 as real / 40.0;
  }
}

=== FILE: timeline.dfy ===
/** The recorded timeline behind rewind and replay.

    Every unpaused frame appends the observable state of each actor to that actor's history: one
    angle history per paddle, the platform location, the ball's position and velocity, and the
    game variables (score, lives, game-over flag, replay index). Rewinding pops the newest entry of
    every history but never below its first entry, except the replay-index history, whose guard
    is an empty statement (`if (...);`) so it is popped every time and can run empty. The R key
    cuts every history back to its first entry, except the replay-index history. */
module Timeline {
  import opened JsValue
  import opened Kinematics

  datatype Record = Record(
    angle: seq<seq<int>>,         // one history per paddle, indexed by paddle number
    location: seq<int>,
    position: seq<Vec>,
    velocity: seq<Vec>,
    score: seq<int>,
    lives: seq<int>,
    isGameOver: seq<bool>,
    pointInTime: seq<Slot<int>>)

  /** One frame's worth of observable state, as appended to (or read back from) the record. */
  datatype Snapshot = Snapshot(
    angles: seq<int>, location: int, position: Vec, velocity: Vec,
    score: int, lives: int, isGameOver: bool, pointInTime: Slot<int>)

  /** The number of recorded frames (all synchronised histories share it). */
  function Frames(r: Record): nat
  {
    |r.location|
  }

  /** The histories other than the replay index all hold the same, non-zero number of frames,
      and there is one angle history per paddle. */
  predicate Synced(r: Record, paddles: nat)
  {
    && |r.angle| == paddles
    && |r.location| >= 1
    && (forall i :: 0 <= i < |r.angle| ==> |r.angle[i]| == |r.location|)
    && |r.position| == |r.location| && |r.velocity| == |r.location|
    && |r.score| == |r.location| && |r.lives| == |r.location| && |r.isGameOver| == |r.location|
  }

  /** The record as the game builds it at start-up: one frame per history. */
  function FirstRecord(first: Snapshot): (r: Record)
    ensures Synced(r, |first.angles|) && Frames(r) == 1
    ensures |r.pointInTime| == 1
  {
    Record(seq(|first.angles|, i requires 0 <= i < |first.angles| => [first.angles[i]]),
           [first.location], [first.position], [first.velocity],
           [first.score], [first.lives], [first.isGameOver], [first.pointInTime])
  }

  /** `updateRecord`: append the snapshot to every history. */
  function Append(r: Record, x: Snapshot): (r': Record)
    requires |x.angles| == |r.angle|
    ensures |r'.angle| == |r.angle|
    ensures forall i :: 0 <= i < |r.angle| ==> r'.angle[i] == r.angle[i] + [x.angles[i]]
    ensures r'.location == r.location + [x.location]
    ensures r'.position == r.position + [x.position] && r'.velocity == r.velocity + [x.velocity]
    ensures r'.score == r.score + [x.score] && r'.lives == r.lives + [x.lives]
    ensures r'.isGameOver == r.isGameOver + [x.isGameOver]
    ensures r'.pointInTime == r.pointInTime + [x.pointInTime]
  {
    Record(seq(|r.angle|, i requires 0 <= i < |r.angle| => r.angle[i] + [x.angles[i]]),
           r.location + [x.location], r.position + [x.position], r.velocity + [x.velocity],
           r.score + [x.score], r.lives + [x.lives], r.isGameOver + [x.isGameOver],
           r.pointInTime + [x.pointInTime])
  }

  /** Appending keeps the histories synchronised and adds exactly one frame. */
  lemma AppendKeepsSynced(r: Record, x: Snapshot)
    requires Synced(r, |r.angle|) && |x.angles| == |r.angle|
    ensures Synced(Append(r, x), |r.angle|)
    ensures Frames(Append(r, x)) == Frames(r) + 1
  {
  }

  /** Pop the newest entry unless only the first is left (`if (h.length != 1) h.pop()`). */
  function PopUnlessFirst<T>(h: seq<T>): (r: seq<T>)
    ensures |h| == 1 ==> r == h
    ensures |h| != 1 ==> r == Pop(h)
  {
    if |h| != 1 then Pop(h) else h
  }

  /** `rewind`: one frame back in every history. */
  function Rewind(r: Record): (r': Record)
    ensures |r'.angle| == |r.angle|
    ensures forall i :: 0 <= i < |r.angle| ==> r'.angle[i] == PopUnlessFirst(r.angle[i])
    ensures r'.location == PopUnlessFirst(r.location)
    ensures r'.position == PopUnlessFirst(r.position)
    ensures r'.velocity == PopUnlessFirst(r.velocity)
    ensures r'.score == PopUnlessFirst(r.score) && r'.lives == PopUnlessFirst(r.lives)
    ensures r'.isGameOver == PopUnlessFirst(r.isGameOver)
    ensures r'.pointInTime == Pop(r.pointInTime)
  {
    Record(seq(|r.angle|, i requires 0 <= i < |r.angle| => PopUnlessFirst(r.angle[i])),
           PopUnlessFirst(r.location), PopUnlessFirst(r.position), PopUnlessFirst(r.velocity),
           PopUnlessFirst(r.score), PopUnlessFirst(r.lives), PopUnlessFirst(r.isGameOver),
           // the guard of this pop is an empty statement, so the pop always happens
           Pop(r.pointInTime))
  }

  /** Rewinding never empties a synchronised history: it drops one frame, or none when only the
      first frame is left. */
  lemma RewindKeepsSynced(r: Record)
    requires Synced(r, |r.angle|)
    ensures Synced(Rewind(r), |r.angle|)
    ensures Frames(Rewind(r)) == if Frames(r) == 1 then 1 else Frames(r) - 1
  {
  }

  /** The replay-index history is the exception: rewinding a record whose other histories are
      back at their first frame empties it. */
  lemma RewindEmptiesReplayIndex(r: Record)
    requires Synced(r, |r.angle|) && Frames(r) == 1 && |r.pointInTime| == 1
    ensures Rewind(r).pointInTime == []
    ensures Synced(Rewind(r), |r.angle|) && Frames(Rewind(r)) == 1
  {
  }

  /** Rewind undoes a frame's recording exactly. */
  lemma RewindUndoesAppend(r: Record, x: Snapshot)
    requires Synced(r, |r.angle|) && |x.angles| == |r.angle|
    ensures Rewind(Append(r, x)) == r
  {
    var r' := Rewind(Append(r, x));
    assert forall i :: 0 <= i < |r.angle| ==> (r.angle[i] + [x.angles[i]])[..|r.angle[i]|] == r.angle[i];
    assert r'.angle == r.angle;
    assert (r.location + [x.location])[..|r.location|] == r.location;
    assert (r.position + [x.position])[..|r.position|] == r.position;
    assert (r.velocity + [x.velocity])[..|r.velocity|] == r.velocity;
    assert (r.score + [x.score])[..|r.score|] == r.score;
    assert (r.lives + [x.lives])[..|r.lives|] == r.lives;
    assert (r.isGameOver + [x.isGameOver])[..|r.isGameOver|] == r.isGameOver;
    assert (r.pointInTime + [x.pointInTime])[..|r.pointInTime|] == r.pointInTime;
  }

  /** The R key: every history but the replay index is cut back to its first entry. */
  function CutToFirst(r: Record): (r': Record)
    requires Synced(r, |r.angle|)
    ensures Synced(r', |r.angle|) && Frames(r') == 1
    ensures forall i :: 0 <= i < |r.angle| ==> r'.angle[i] == [r.angle[i][0]]
    ensures r'.location == [r.location[0]] && r'.position == [r.position[0]]
    ensures r'.velocity == [r.velocity[0]]
    ensures r'.score == [r.score[0]] && r'.lives == [r.lives[0]]
    ensures r'.isGameOver == [r.isGameOver[0]]
    ensures r'.pointInTime == r.pointInTime
  {
    Record(seq(|r.angle|, i requires 0 <= i < |r.angle| => [r.angle[i][0]]),
           [r.location[0]], [r.position[0]], [r.velocity[0]],
           [r.score[0]], [r.lives[0]], [r.isGameOver[0]], r.pointInTime)
  }

  /** Cutting back twice is the same as cutting back once. */
  lemma CutToFirstIdempotent(r: Record)
    requires Synced(r, |r.angle|)
    ensures CutToFirst(CutToFirst(r)) == CutToFirst(r)
  {
    var c := CutToFirst(r);
    assert CutToFirst(c).angle == c.angle;
  }

  /** The newest entry of every history, as `pauseGame` reads it. The replay index is read as
      `undefined` from an empty history, and an `undefined` stored in it reads back as such. */
  function Latest(r: Record): (x: Snapshot)
    requires Synced(r, |r.angle|)
    ensures |x.angles| == |r.angle|
    ensures forall i :: 0 <= i < |r.angle| ==> x.angles[i] == r.angle[i][|r.angle[i]| - 1]
    ensures x.location == r.location[|r.location| - 1]
    ensures x.position == r.position[|r.position| - 1] && x.velocity == r.velocity[|r.velocity| - 1]
    ensures x.score == r.score[|r.score| - 1] && x.lives == r.lives[|r.lives| - 1]
    ensures x.isGameOver == r.isGameOver[|r.isGameOver| - 1]
    ensures |r.pointInTime| > 0 ==> x.pointInTime == r.pointInTime[|r.pointInTime| - 1]
    ensures |r.pointInTime| == 0 ==> x.pointInTime == Undefined
  {
    var n := Frames(r) - 1;
    Snapshot(seq(|r.angle|, i requires 0 <= i < |r.angle| => r.angle[i][n]),
             r.location[n], r.position[n], r.velocity[n],
             r.score[n], r.lives[n], r.isGameOver[n],
             match Newest(r.pointInTime)
             case Undefined => Undefined
             case Defined(p) => p)
  }

  /** What was appended last is what is read back. */
  lemma LatestOfAppend(r: Record, x: Snapshot)
    requires Synced(r, |r.angle|) && |x.angles| == |r.angle|
    ensures Synced(Append(r, x), |r.angle|)
    ensures Latest(Append(r, x)) == x
  {
    var l := Latest(Append(r, x));
    assert l.angles == x.angles;
  }

  /** The part of frame `f` that the replay restores: paddle angles, platform location and ball
      position; `Undefined` when the frame is not recorded. */
  datatype ReplayFrame = ReplayFrame(angles: seq<int>, location: int, position: Vec)

  function FrameAt(r: Record, f: Slot<int>): (x: Slot<ReplayFrame>)
    requires Synced(r, |r.angle|)
    ensures x.Defined? <==> f.Defined? && 0 <= f.value < Frames(r)
    ensures x.Defined? ==>
              && |x.value.angles| == |r.angle|
              && (forall i :: 0 <= i < |r.angle| ==> x.value.angles[i] == r.angle[i][f.value])
              && x.value.location == r.location[f.value]
              && x.value.position == r.position[f.value]
  {
    match f
    case Defined(n) =>
      if 0 <= n < Frames(r) then
        Defined(ReplayFrame(seq(|r.angle|, i requires 0 <= i < |r.angle| => r.angle[i][n]),
                            r.location[n], r.position[n]))
      else Undefined
    case Undefined => Undefined
  }

  /** The newest frame is the one a replay at the last recorded index would show: pausing and
      replaying the end of the recording agree. */
  lemma LatestIsLastFrame(r: Record)
    requires Synced(r, |r.angle|)
    ensures var x := Latest(r);
            FrameAt(r, Defined(Frames(r) - 1)) == Defined(ReplayFrame(x.angles, x.location, x.position))
  {
    var x := Latest(r);
    var f := FrameAt(r, Defined(Frames(r) - 1));
    assert f.value.angles == x.angles;
  }

  /** Frames already recorded are never disturbed by further recording, so a replay index that
      was valid stays valid and reads the same frame. */
  lemma FrameAtStableUnderAppend(r: Record, x: Snapshot, f: Slot<int>)
    requires Synced(r, |r.angle|) && |x.angles| == |r.angle|
    requires FrameAt(r, f).Defined?
    ensures Synced(Append(r, x), |r.angle|)
    ensures FrameAt(Append(r, x), f) == FrameAt(r, f)
  {
    var a := Append(r, x);
    var n := f.value;
    assert FrameAt(a, f).value.angles == FrameAt(r, f).value.angles;
  }
}
